=== FILE: README.md ===
# OpxMarkUp in Dafny

OpxMarkUp turns a small line-oriented markup into HTML. `OpxMarkUp::parse` works in four steps:

1. It splits the content on `\r\n` or `\n` and drops the empty pieces.
2. It trims each piece and classifies it: headings `#`…`######`, list items `* `, table rows `|`, a rule `---`, a raw line `/`, and otherwise a paragraph, where a leading `\` escapes the line.
3. While doing so it opens and closes a `<ul>` list and a `<div><table>` table. Two flags drive this, and anything still open is closed at the end.
4. It runs two inline rewriters over the whole result: `[img::src::alt::align]` becomes an `<img>` tag, then `[caption](target)` becomes an `<a>` tag.

Every opening tag except `<hr>` can carry a BEM-style class derived from an optional base class name; closing tags never do.

The model is functional. Strings are `seq<char>`. Each regular expression is replaced by a hand-written leftmost scanner. The fold over lines is a pure state machine.

Modules:

- `Options` holds `Option<T>`, which stands for PHP's `null`.
- `Text` models PHP's `trim`, `strpos`, `explode` and `strtolower`.
- `ClassAttr` models the `class()` helper.
- `Lines` models `preg_split("/\r\n|\n/", …, PREG_SPLIT_NO_EMPTY)`.
- `Scanning` holds the generic `Piece<T>` and `Flatten` used by every replace-callback. A scan is a list of literal characters and matches, and flattening it with the match's source text gives back the input. `TriedEverywhere` says that a scan agrees, at every piece, with the pattern tried at that point.
- `TableRow` models the cell pattern `\|([^|.]+)` and its callback.
- `Blocks` holds the line classifier. It also holds the fold with its `(listOpen, tableOpen, out)` state and the nesting and balance theory over the emitted block events.
- `Images` and `Links` hold the two inline passes.
- `MarkUp` holds the HTML rendering of block events, `Parse`, and `RenderLines`. `RenderLines` is an imperative loop over the two PHP flags: it closes before it opens, as the PHP loop does, and closes what is still open at the end. Each line's own HTML, and the HTML of each opening tag, comes from the functional `Render` of the line's block event. The loop is proved equal to the functional fold.

The model follows the code as written, including these points:

- `class(null, suffix)` is `null`, so no attribute is produced.
- The suffix is not trimmed.
- The image alignment token is added only for `left`, `right` and `center`.
- A `---` line gives a bare `<hr>` with no line break.
- A table is closed by `</table>\r\n</div>\r\n`.
- There is no branch for `[`/`]` blocks or for `//` comments: a `//x` line is a raw line giving `/x`.
- The content `"0"` is falsy and gives `null`.

## Model

| member | source | states |
|---|---|---|
| MarkUp.Parse | src/OpxMarkUp.php:17-21 | the result is null exactly when the content is null, `""` or `"0"`, and otherwise it is the image-then-link rewrite of the rendered blocks |
| MarkUp.ParseText | src/OpxMarkUp.php:17-116 | the imperative procedure (falsy test, split, line loop, end closes, two inline passes) returns exactly what the functional `Parse` defines |
| MarkUp.RenderLines | src/OpxMarkUp.php:26-111 | the loop over trimmed lines with the two flags produces the rendering of the block-event fold, end-of-input closes included |
| MarkUp.CloseTags | src/OpxMarkUp.php:32-43 | a line not starting `* ` closes an open list with `</ul>`, and one not starting with a bar closes an open table with `</table></div>`; the flags are cleared accordingly |
| MarkUp.OpenTag | src/OpxMarkUp.php:57-61 | a list item opens `<ul…>` only when no list is open, a row opens `<div…><table…>` only when no table is open, and the flags afterwards say whether a list or table is open |
| MarkUp.EndTags | src/OpxMarkUp.php:103-111 | at end of input an open list is closed by `</ul>` and an open table by `</table></div>` |
| MarkUp.HeadingHtml | src/OpxMarkUp.php:45-56 | a line opening with n hashes and a space renders as `<hn…>` + the text after the first n+1 characters + `</hn>` |
| MarkUp.ItemHtml | src/OpxMarkUp.php:57-75 | a line starting `* ` renders as `<li`, the `list-item` class attribute, `>`, the text after the first two characters and `</li>\r\n` |
| MarkUp.RowHtml | src/OpxMarkUp.php:76-90 | a line starting with a bar renders as `<tr`, the `table-row` class attribute, `>\r\n`, the whole line with its cells rewritten by the cell pattern, and `</tr>\r\n` |
| MarkUp.RuleHtml | src/OpxMarkUp.php:91-92 | a line starting `---` renders as a bare `<hr>`: no class attribute and no line break |
| MarkUp.RawHtml | src/OpxMarkUp.php:93-94 | a line starting `/` is written as it stands without that first character |
| MarkUp.EscapedHtml | src/OpxMarkUp.php:95-99 | a line starting with a backslash renders as `<p`, the `paragraph` class attribute, `>`, the rest trimmed again and `</p>\r\n` |
| MarkUp.ParagraphHtml | src/OpxMarkUp.php:95-99 | a line that no heading, item, row, rule, raw or escape branch takes renders as `<p…>` around the line as it stands and `</p>\r\n` |
| MarkUp.BlankLineHtml | src/OpxMarkUp.php:95-99 | a piece of blanks only renders as an empty paragraph `<p…></p>\r\n` |
| MarkUp.Render | src/OpxMarkUp.php:45-100 | every block but a raw line opens with a tag, and every block but a rule and a raw line ends its HTML with `\r\n`; `HeadingHtml`, `ItemHtml`, `RowHtml`, `RuleHtml`, `RawHtml`, `EscapedHtml`, `ParagraphHtml`, `ClosingsHtml`, `OpeningsHtml` and `FinalHtml` give the exact strings |
| MarkUp.FinalHtml | src/OpxMarkUp.php:103-111 | the end-of-input events render as `</ul>` when a list is open and `</table></div>` when a table is open |
| MarkUp.ClosingsHtml | src/OpxMarkUp.php:32-43 | the close events emitted before a line render as the two PHP close strings, under exactly the PHP conditions |
| MarkUp.OpeningsHtml | src/OpxMarkUp.php:57-61 | the open events render as `<ul…>` for the first item of a run, `<div…><table…>` for the first row of a run, and nothing otherwise |
| MarkUp.RenderAllAppend | src/OpxMarkUp.php:24-111 | rendering distributes over concatenation of block events, which is how the output string is built up by appending |
| MarkUp.RenderAll | src/OpxMarkUp.php:26-111 | the HTML of a list of blocks is their HTML one after another, as `$new` grows by appending; stated by `RenderAllAppend` and `RenderOne` |
| MarkUp.Convert | src/OpxMarkUp.php:23-115 | the image and link passes leave the rendered blocks unchanged when those contain no `[`; `Parse`, `ParseText` and `RenderLines` state what the rest of the pipeline produces |
| MarkUp.OnlyBreaksGiveEmptyString | src/OpxMarkUp.php:23 | content made only of a line break is truthy but has no non-empty line, so the result is `""` and not null |
| Text.Trim | src/OpxMarkUp.php:30 | trimming never lengthens the line, and the result neither starts nor ends with one of `" \t\n\r\0\x0B"` |
| Text.TrimFramed | src/OpxMarkUp.php:30 | the trimmed line is a contiguous slice of the line, and everything cut off on either side is whitespace |
| Text.TrimIdempotent | src/OpxMarkUp.php:30 | trimming twice is trimming once |
| Text.TrimEmptyIffBlank | src/OpxMarkUp.php:30 | a line trims to `""` exactly when it is whitespace only |
| Text.IndexOf | src/OpxMarkUp.php:133 | `strpos` gives the leftmost occurrence, and false exactly when the needle does not occur |
| Text.Explode | src/OpxMarkUp.php:150 | `explode` gives at least one part, the parts joined with the separator are the input, no part contains the separator, and each cut is at the leftmost separator: no separator starts inside a part and runs into the separator written after it |
| Text.ExplodeStep | src/OpxMarkUp.php:150 | the text before the leftmost separator, put in front of the parts of the rest, keeps every promise of `explode`, the leftmost cut included |
| Text.Lower | src/OpxMarkUp.php:153 | `strtolower` keeps the length, maps each ASCII capital to its small letter and leaves no capital |
| Lines.SplitLines | src/OpxMarkUp.php:23 | every line is non-empty and contains no `\n`; `SplitJoinLfGeneral` and `SplitJoinCrlfGeneral` fix the cuts for every input (the non-empty lines between breaks, in order, the text after the last break included), and `ConcatSplitLines` states that no character other than a break is lost |
| Lines.Pieces | src/OpxMarkUp.php:23 | `preg_split` without `PREG_SPLIT_NO_EMPTY`: at least one piece, none containing `\n`; `PiecesNoBreak`, `PiecesJoinLf` and `PiecesJoinCrlf` state that the pieces are the texts between breaks, empty ones included, and the text after the last break |
| Lines.DropEmpty | src/OpxMarkUp.php:23 | `PREG_SPLIT_NO_EMPTY`: the kept pieces are exactly the non-empty ones, each from the input list; `DropEmptyAppend` states that order and multiplicity are kept, and `ConcatDropEmpty` that their concatenation is unchanged |
| Lines.PiecesNoBreak | src/OpxMarkUp.php:23 | a text without `\n` is a single piece, so a last line needs no break |
| Lines.DropEmptyAppend | src/OpxMarkUp.php:23 | dropping empty pieces commutes with concatenation, so the kept pieces stay in input order, each as often as it occurs |
| Lines.PiecesJoinLf | src/OpxMarkUp.php:23 | lines joined by `\n` and followed by a last line give one piece per line, empty lines included, provided none ends in `\r` |
| Lines.SplitJoinLfGeneral | src/OpxMarkUp.php:23 | any text of `\n`-separated lines splits into its non-empty lines in order, the last one included |
| Lines.PiecesJoinCrlf | src/OpxMarkUp.php:23 | lines joined by `\r\n` and followed by a last line give one piece per line, empty lines included |
| Lines.SplitJoinCrlfGeneral | src/OpxMarkUp.php:23 | any text of `\r\n`-separated lines splits into its non-empty lines in order, the last one included |
| Lines.SplitLastLine | src/OpxMarkUp.php:23 | `"a\nb"` splits into `a` and `b` |
| Lines.SplitEmptyLine | src/OpxMarkUp.php:23 | `"a\r\n\r\nb"` splits into `a` and `b`: the empty line between the breaks is dropped |
| Lines.SplitJoinCrlf | src/OpxMarkUp.php:23 | splitting non-empty, break-free lines joined by `\r\n` gives back those lines |
| Lines.SplitJoinLf | src/OpxMarkUp.php:23 | splitting non-empty, break-free lines joined by `\n` gives back those lines, provided none ends in `\r` |
| Lines.CrLineLost | src/OpxMarkUp.php:23 | a line ending in `\r` joined by `\n` loses its `\r`, since `\r\n` is one break |
| Lines.ConcatSplitLines | src/OpxMarkUp.php:23 | the lines, written one after another, are the input with every `\r\n` and every lone `\n` deleted, so no other character is lost, added or moved |
| Lines.ConcatPieces | src/OpxMarkUp.php:23 | the pieces between breaks, empty ones included, spell the input without its breaks |
| Lines.ConcatDropEmpty | src/OpxMarkUp.php:23 | dropping the empty pieces (`PREG_SPLIT_NO_EMPTY`) does not change what the pieces spell |
| Lines.StripUpTo | src/OpxMarkUp.php:23 | up to the first break, deleting breaks copies the input character for character |
| Lines.StripBreaksExamples | src/OpxMarkUp.php:23 | `\r\n` and `\n` are deleted as breaks, and a lone `\r` is kept |
| ClassAttr.Divider | src/OpxMarkUp.php:133 | the divider is `-` exactly when the base contains `__`, and `__` otherwise |
| ClassAttr.Value | src/OpxMarkUp.php:132-136 | the class value starts with the base; without a suffix it is the base, and with one it is the base, the divider and the untrimmed suffix |
| ClassAttr.Class | src/OpxMarkUp.php:126-137 | `class()` is null exactly when the base is null, even when a suffix is given; otherwise it is ` class="…"` around the value |
| ClassAttr.ValueNamesElement | src/OpxMarkUp.php:133 | every suffixed class value contains `__`, so the result names a BEM element |
| ClassAttr.ClassSuffixInjective | src/OpxMarkUp.php:126-137 | for a fixed base, different suffixes give different class attributes |
| Blocks.HeadingLevelSpec | src/OpxMarkUp.php:45-56 | the heading level found is a level whose hash-and-space prefix the line has, and any level whose prefix the line has is the one found |
| Blocks.HeadingTestSpec | src/OpxMarkUp.php:45-56 | testing from n hashes downwards finds the unique prefix length up to n |
| Blocks.HashPrefixUnique | src/OpxMarkUp.php:45-56 | a line has at most one hash-and-space prefix, so checking the longest prefix first decides nothing the other checks would contradict |
| Blocks.HashesPrefix | src/OpxMarkUp.php:45-56 | starting with the literal of n hashes and a space is the same as having the n-hash prefix |
| Blocks.HeadingLiterals | src/OpxMarkUp.php:45-56 | the six heading literals are `###### ` down to `# ` |
| Blocks.HeadingLevel | src/OpxMarkUp.php:45-56 | the chain of heading tests from `###### ` down to `# `: the level is at most 6, and a non-zero level is shorter than the line; `HeadingLevelSpec` states that it is the unique level whose prefix the line has |
| Blocks.HeadingTest | src/OpxMarkUp.php:45-56 | the tests from n hashes downwards give a level at most n; `HeadingTestSpec` states that it is the unique prefix length up to n |
| Blocks.ClassifyHeading | src/OpxMarkUp.php:45-56 | an n-hash line is heading n with the text after n+1 characters; a heading of level n has that prefix; levels are 1 to 6 |
| Blocks.NoHeading | src/OpxMarkUp.php:45-56 | a line not starting with `#` is not a heading |
| Blocks.Classify | src/OpxMarkUp.php:45-100 | no line is classified as an open or close event; `ClassifyHeading`, `ClassifyItem`, `ClassifyRow` and `ClassifyFallbacks` state each branch in the order the code tests them |
| Blocks.ClassifyItem | src/OpxMarkUp.php:57-62 | a line is a list item exactly when it starts `* `, and the item text is what follows those two characters |
| Blocks.ClassifyRow | src/OpxMarkUp.php:76 | a line is a table row exactly when it starts with a bar, and the row keeps the whole line |
| Blocks.ClassifyFallbacks | src/OpxMarkUp.php:91-99 | `---` gives a rule, `/` gives the rest verbatim, `\` gives the re-trimmed rest as a paragraph, and a line that has no heading prefix and starts with none of `* `, bar, `---`, `/` or `\` is a paragraph as it stands |
| Blocks.BlankLineIsEmptyParagraph | src/OpxMarkUp.php:30 | a whitespace-only piece becomes an empty paragraph |
| Blocks.Run | src/OpxMarkUp.php:26-101 | after the lines processed so far, a list is open exactly when the last line is an item, a table exactly when it is a row, and never both |
| Blocks.Step | src/OpxMarkUp.php:30-100 | after one line a list is open exactly when the line is an item and a table exactly when it is a row, whatever was open before, and the output grows by the line's closings, openings and own block |
| Blocks.Closings | src/OpxMarkUp.php:32-43 | the close events before a line; stated by `ClosingsSpec` |
| Blocks.ClosingsSpec | src/OpxMarkUp.php:32-43 | an open list is closed exactly when the line does not start `* `, an open table exactly when it does not start with a bar, the list first, and nothing else is emitted |
| Blocks.Openings | src/OpxMarkUp.php:57-81 | the open events for a line; stated by `OpeningsSpec` |
| Blocks.OpeningsSpec | src/OpxMarkUp.php:57-81 | a list is opened exactly for an item line when no list is open, a table exactly for a row line when no table is open, and at most one of them |
| Blocks.Emit | src/OpxMarkUp.php:32-100 | the events of one loop iteration; stated by `EmitSpec` and `EmitContent` |
| Blocks.EmitSpec | src/OpxMarkUp.php:32-100 | one line's events end with the line's own block, and every event before it opens or closes a list or table |
| Blocks.Final | src/OpxMarkUp.php:103-111 | the end-of-input events; stated by `FinalSpec` |
| Blocks.FinalSpec | src/OpxMarkUp.php:103-111 | at the end the open list is closed exactly when one is open, then the open table exactly when one is open, and nothing else is emitted |
| Blocks.Events | src/OpxMarkUp.php:29-111 | the events hold at least one per line and none for no lines; `BlocksWellNested`, `BlocksBalanced` and `BlocksContent` state their order and nesting |
| Blocks.StepNested | src/OpxMarkUp.php:32-100 | the events emitted for one line are well nested starting from the current flags and end at the next flags |
| Blocks.RunNested | src/OpxMarkUp.php:29-101 | the events of any prefix of the input are well nested and leave open exactly the structures the flags say |
| Blocks.BlocksWellNested | src/OpxMarkUp.php:29-111 | the whole event trace is well nested and closes everything it opens |
| Blocks.ReplayAppend | src/OpxMarkUp.php:29-111 | reading back a concatenation of events reads back the first part, then the second from where the first left off |
| Blocks.ReplayCounts | src/OpxMarkUp.php:29-111 | along a well-nested trace, opens plus the initial open flag equal closes plus the final open flag |
| Blocks.BlocksBalanced | src/OpxMarkUp.php:33-43 | every `<ul…>` is matched by exactly one `</ul>`, and every `<div…><table…>` by exactly one `</table></div>`, the end-of-input closes included |
| Blocks.StepOpens | src/OpxMarkUp.php:57-61 | a line opens a list exactly when it is an item and no list is open, and a table exactly when it is a row and no table is open |
| Blocks.RunOpens | src/OpxMarkUp.php:57-81 | the number of lists opened is the number of maximal runs of item lines, and likewise for tables and row lines |
| Blocks.OnePerRun | src/OpxMarkUp.php:57-81 | in the whole output, consecutive `* ` lines share a single `<ul…>` and consecutive bar lines a single table |
| Blocks.EmitContent | src/OpxMarkUp.php:32-100 | apart from open and close events, a line contributes exactly its own classification |
| Blocks.RunContent | src/OpxMarkUp.php:29-101 | apart from open and close events, the fold emits every trimmed line's classification in input order |
| Blocks.BlocksContent | src/OpxMarkUp.php:29-111 | apart from open and close events, the output is the classification of every trimmed line in order, with nothing lost, duplicated or reordered |
| Blocks.ContentsAppend | src/OpxMarkUp.php:29-111 | stripping the structural events distributes over concatenation |
| Blocks.ClassifyAllAt | src/OpxMarkUp.php:29-30 | the i-th classification is that of the i-th trimmed line |
| Blocks.ItemStep | src/OpxMarkUp.php:57-61 | an item line when no table is open leaves a list open, adds `<ul>` only if none was open, then the item |
| Blocks.ItemsRun | src/OpxMarkUp.php:57-61 | a sequence of item lines yields one list opening followed by the items |
| Blocks.ItemsFormOneList | src/OpxMarkUp.php:57-61 | input made only of item lines renders as a single list: one open, the items in order, one close |
| Blocks.ItemsClassified | src/OpxMarkUp.php:57-62 | each item line's event is the item with the text after `* ` |
| Blocks.RowStep | src/OpxMarkUp.php:76-81 | a row line when no list is open leaves a table open, adds the table opening only if none was open, then the row |
| Blocks.RowsRun | src/OpxMarkUp.php:76-81 | a sequence of row lines yields one table opening followed by the rows |
| Blocks.RowsFormOneTable | src/OpxMarkUp.php:76-81 | input made only of row lines renders as a single table: one open, the rows in order, one close |
| Blocks.RowsClassified | src/OpxMarkUp.php:76 | each row line's event is the row holding the whole trimmed line |
| TableRow.RunEnd | src/OpxMarkUp.php:83 | the capture runs greedily over characters other than a bar and a dot, up to the first bar, dot or end of line |
| TableRow.Scan | src/OpxMarkUp.php:83 | the scan reproduces the row; every match is a maximal run of cell characters after a bar; no match is followed by a cell character |
| TableRow.ScanUnique | src/OpxMarkUp.php:83 | any well-formed decomposition of the row into literals and maximal cell matches is the scan, so the leftmost-longest matching is unique |
| TableRow.Rewrite | src/OpxMarkUp.php:83-89 | a row with no cell match is copied through unchanged; `RewriteTwoCells`, `RewriteSpacedCells` and `RewriteDotEndsCell` give rows with matches |
| TableRow.CellTag | src/OpxMarkUp.php:84-88 | a capture that PHP's `empty()` rejects (the string `"0"`) gives an empty replacement, and any other gives `<td`, the `table-cell` class attribute, `>`, the trimmed capture and `</td>\r\n` |
| TableRow.RewriteTwoCells | src/OpxMarkUp.php:83-89 | a row of `A` and `B`, each after a bar, becomes two `<td>` cells |
| TableRow.ScanDot | src/OpxMarkUp.php:83 | in a row of a bar then `a.b`, the match stops at the dot, and the dot and the rest are literals |
| TableRow.RewriteDotEndsCell | src/OpxMarkUp.php:83-89 | a row of a bar then `a.b` becomes a cell for `a` followed by `.b` verbatim |
| TableRow.ScanSpacedCells | src/OpxMarkUp.php:83 | in the row made of a bar, ` A `, a bar and `B`, the first match takes ` A ` up to the second bar and the second match takes `B` |
| TableRow.RewriteSpacedCells | src/OpxMarkUp.php:83-89 | without a base, the row of ` A ` and `B` each after a bar becomes `<td>A</td>\r\n<td>B</td>\r\n`: each capture is trimmed |
| TableRow.MatchStep | src/OpxMarkUp.php:83 | a maximal run taken at a leading bar, in front of a well-formed scan of the rest, is a well-formed scan of the row |
| TableRow.PlainStep | src/OpxMarkUp.php:83 | a character copied at the start, in front of a well-formed scan of the rest, is a well-formed scan of the row |
| Scanning.FlattenNoMatch | src/OpxMarkUp.php:149 | a scan with no match rewrites to the same text whatever the callback |
| Scanning.ScanTo | src/OpxMarkUp.php:149 | the search for a closing character finds the first one on the same line, or reports there is none before the line ends |
| Images.ImageAt | src/OpxMarkUp.php:149 | an `[img::…]` match at the start of the text is found exactly when the lazy pattern matches there, ending at the first `]` after the payload's first character |
| Images.MatchSplit | src/OpxMarkUp.php:149 | a match splits the text into a well-formed payload and the rest |
| Images.Scan | src/OpxMarkUp.php:149 | the image scan reproduces the text, every match has a well-formed payload, and text without `[` has no match |
| Images.ScanTried | src/OpxMarkUp.php:149 | the pattern was tried at the start of the text from every piece on: no match where a character is copied, and a match ending at the payload's `]` where a match stands |
| Images.ScanLeftmost | src/OpxMarkUp.php:149 | from each piece of the scan onwards, the lazy pattern's match at that point is exactly what the piece says, so matches are taken leftmost first and nothing that matches is copied |
| Images.MatchStep | src/OpxMarkUp.php:149 | a match at the start, in front of a well-formed scan of the rest, covers the text and keeps every payload well formed |
| Images.PlainStep | src/OpxMarkUp.php:149 | a copied first character, in front of a well-formed scan of the rest, covers the text and adds no match to a text without `[` |
| Images.ParseOptions | src/OpxMarkUp.php:150-153 | without `::` the payload is both source and alt with no alignment; otherwise the source is the text before the first `::`; an alignment has no capitals |
| Images.ExplodeFirst | src/OpxMarkUp.php:150 | exploding `p::rest` gives `p` followed by the parts of `rest` |
| Images.OptionsRoundTrip | src/OpxMarkUp.php:150-153 | options written as `src::alt::align` read back as source, alt and lower-cased alignment |
| Images.TwoPartOptions | src/OpxMarkUp.php:150-153 | a two-part payload gives the source, the alt, and no alignment |
| Images.ExtraPartsIgnored | src/OpxMarkUp.php:150-153 | parts after the third do not change the options |
| Images.ThreeParts | src/OpxMarkUp.php:150-153 | when the payload explodes into at least three parts, the options are the first two and the lower-cased third |
| Images.ExplodeThree | src/OpxMarkUp.php:150 | exploding `a::b::c::rest` gives `a`, `b`, `c` and then the parts of `rest` |
| Images.Styling | src/OpxMarkUp.php:155-171 | without a base: a float for left and right, auto margins for center, nothing otherwise; with a base: the `img` element class, plus an `img-<align>` modifier only for the three known alignments |
| Images.Tag | src/OpxMarkUp.php:149-173 | the replacement is an `<img …>` tag, and a payload without `::` is used both as `src` and as `alt`, with the styling of an image without alignment |
| Images.Replace | src/OpxMarkUp.php:147-175 | text without `[` is left unchanged by the image pass; `ScanLeftmost` and `ReplaceSingle` state where and how matches are replaced |
| Images.ReplaceSingle | src/OpxMarkUp.php:147-174 | the source text of one image is replaced by exactly its tag |
| Images.CentredOptions | src/OpxMarkUp.php:150-153 | `pic.png::A cat::center` gives source, alt and alignment `center` |
| Images.CentredImage | src/OpxMarkUp.php:155-173 | a centred image without a base is `<img style="margin:0 auto" src=… alt=…>` |
| Links.BridgeFrom | src/OpxMarkUp.php:187 | the search for `](` finds the first one on the same line or reports none before the line ends |
| Links.LinkAt | src/OpxMarkUp.php:187 | a link match at the start of the text is found exactly when one exists, and it is the one with the shortest caption and then the shortest target, with neither crossing a line break |
| Links.LaterBridge | src/OpxMarkUp.php:187 | no match can use a `](` later than the first one on the line |
| Links.MatchCaptures | src/OpxMarkUp.php:187-191 | a match splits the text into a caption, a target and the rest |
| Links.Scan | src/OpxMarkUp.php:187 | the link scan reproduces the text, every match has well-formed captures, and text without `[` has no match |
| Links.ScanTried | src/OpxMarkUp.php:187 | the pattern was tried at the start of the text from every piece on: no match where a character is copied, and a match with the piece's `](` and `)` positions where a match stands |
| Links.ScanLeftmost | src/OpxMarkUp.php:187 | from each piece of the scan onwards, the lazy pattern's match at that point is exactly what the piece says, so matches are taken leftmost first and nothing that matches is copied |
| Links.MatchExtent | src/OpxMarkUp.php:187-191 | a match found at the start is the one the link built from its two captures says, with `](` right after the caption and `)` right after the target |
| Links.StepTried | src/OpxMarkUp.php:187 | a first piece that agrees with the pattern at the start, in front of a scan tried everywhere, gives a scan tried everywhere |
| Links.Href | src/OpxMarkUp.php:193-197 | a target without `::` is used verbatim; one with `::` goes through `route` when that helper exists and is used verbatim otherwise |
| Links.Tag | src/OpxMarkUp.php:191-202 | a target without `::`, or any target when `route` does not exist, is used verbatim as the `href`, with the `link` class attribute and the caption as the text |
| Links.Replace | src/OpxMarkUp.php:185-204 | text without `[` is left unchanged by the link pass; `ScanLeftmost` and `ReplaceSingle` state where and how matches are replaced |
| Links.SingleMatch | src/OpxMarkUp.php:187 | the source text of a single link is matched as a whole |
| Links.ReplaceSingle | src/OpxMarkUp.php:185-203 | the source text of one link is replaced by exactly its `<a>` tag |
| Links.RouteFallback | src/OpxMarkUp.php:193-202 | without a base and without `route`, `[Home](home::index)` gives `<a href="home::index">Home</a>` |

## Left out

- `route()` is a helper from the surrounding framework. It is modelled as an optional function parameter: `None` means the helper does not exist.
- `route()` may throw, for example for an unknown route name. The exception propagates out of `parse`; the model treats `route` as a total function and does not model this path.
- The `RuntimeException` branch of the link callback is not modelled. Both capture groups always exist in a match, so the branch cannot be reached.
- The commented-out key/value splitting of list items is not modelled, because it is not code.
- `mb_substr` versus byte-wise `strpos` is not distinguished. Strings are sequences of characters and every prefix the code looks for is ASCII.
- PHP warnings are not modelled. A missing third image part, which PHP 8 reports as an "Undefined array key" warning, is treated as null.
- Text.Lower: before PHP 8.2, `strtolower` depends on the current locale and may lower non-ASCII bytes too. The model lowers ASCII capitals only, which is PHP 8.2's behaviour and that of the C locale.
- A general regular-expression engine is not modelled. The three patterns are replaced by scanners whose contracts state the leftmost, lazy or greedy match each pattern has. Line breaks follow PCRE's default, where `.` excludes only `\n`.
- Blocks.BlocksBalanced: balance is stated over the sequence of block events, not over raw substring counts of `<ul` in the HTML. User text is not escaped, so a paragraph may itself contain `<ul>`.
- Blocks.OnePerRun: the count of list openings is stated over the block events, not over the HTML text, for the same reason.
- Text.IndexOf: only the search from the start of the string is modelled, which is how the code calls `strpos`; a start offset is not modelled.
- Images.ParseOptions: alt and alignment are stated through the round-trip lemmas for payloads of two or three parts. They are not stated directly for every payload.
- The matcher is assumed never to fail. When PCRE gives up (for example on reaching `pcre.backtrack_limit`), `preg_replace_callback` returns null, and since `replaceImages` and `replaceLinks` are declared to return `string` (src/OpxMarkUp.php:147, 185), PHP raises a `TypeError`. The model always returns the rewritten text.

=== FILE: blocks.dfy ===
/**
 * The line classifier and block-state machine of `OpxMarkUp::parse`: a fold over
 * the input lines carrying the two flags `ul_opened` and `table_opened`, which
 * emits one block per line plus the list and table openings and closings.
 * Blocks are rendered to HTML separately (module MarkUp).
 */
module Blocks {
  import opened Options
  import opened Text

  datatype Block =
    | ListOpen                    // <ul…>
    | ListClose                   // </ul>
    | TableOpen                   // <div…><table…>
    | TableClose                  // </table></div>
    | Heading(level: nat, text: string)
    | Item(text: string)
    | Row(line: string)           // the whole row line; its cells are rewritten when rendered
    | Rule                        // <hr>
    | Raw(text: string)
    | Paragraph(text: string)
  {
    /** Openings and closings of lists and tables, as opposed to a line's own block. */
    predicate IsStructural() {
      ListOpen? || ListClose? || TableOpen? || TableClose?
    }
  }

  /** `line` starts with exactly `n` hashes followed by a space. */
  predicate HashPrefix(line: string, n: nat) {
    n < |line| && line[n] == ' ' && forall i :: 0 <= i < n ==> line[i] == '#'
  }

  /**
   * The heading tests of `parse`, longest prefix first: "###### ", then
   * "##### ", down to "# "; 0 when none applies.
   */
  function HeadingLevel(line: string): (n: nat)
    ensures n <= 6 && (n > 0 ==> n < |line|)
  {
    HeadingTest(line, 6)
  }

  /**
   * The tests for `n` hashes and a space, then `n - 1`, down to one. A test
   * is the prefix check against the literal `Hashes(n)`, as `HashesPrefix`
   * shows.
   */
  function HeadingTest(line: string, n: nat): (r: nat)
    ensures r <= n && (r > 0 ==> r < |line|)
  {
    if n == 0 then 0
    else if HashPrefix(line, n) then n
    else HeadingTest(line, n - 1)
  }

  /** The block for one trimmed line: the first test that applies wins. */
  function Classify(line: string): (b: Block)
    ensures !b.IsStructural()
  {
    var n := HeadingLevel(line);
    if n > 0 then Heading(n, line[n + 1..])
    else if "* " <= line then Item(line[2..])
    else if "|" <= line then Row(line)
    else if "---" <= line then Rule
    else if "/" <= line then Raw(line[1..])
    else if "\\" <= line then Paragraph(Trim(line[1..]))
    else Paragraph(line)
  }

  /** `n` hashes and a space, the prefix of an `<hn>` line. */
  function Hashes(n: nat): (h: string)
    ensures |h| == n + 1
  {
    seq(n, _ => '#') + " "
  }

  lemma HashesPrefix(line: string, n: nat)
    ensures Hashes(n) <= line <==> HashPrefix(line, n)
  {
    if HashPrefix(line, n) {
      assert line[..n + 1] == Hashes(n);
    }
  }

  lemma HeadingLiterals()
    ensures Hashes(6) == "###### " && Hashes(5) == "##### " && Hashes(4) == "#### "
    ensures Hashes(3) == "### " && Hashes(2) == "## " && Hashes(1) == "# "
  {
  }

  /** At most one heading prefix applies to a line, so the order of the tests cannot matter. */
  lemma HashPrefixUnique(line: string, m: nat, n: nat)
    requires HashPrefix(line, m) && HashPrefix(line, n)
    ensures m == n
  {
  }

  lemma {:induction false} HeadingTestSpec(line: string, n: nat)
    ensures HeadingTest(line, n) > 0 ==> HashPrefix(line, HeadingTest(line, n))
    ensures forall k :: 1 <= k <= n && HashPrefix(line, k) ==> HeadingTest(line, n) == k
  {
    if n > 0 {
      HeadingTestSpec(line, n - 1);
      forall k | 1 <= k <= n && HashPrefix(line, k) ensures HeadingTest(line, n) == k {
        if HashPrefix(line, n) {
          HashPrefixUnique(line, n, k);
        }
      }
    }
  }

  lemma HeadingLevelSpec(line: string)
    ensures HeadingLevel(line) <= 6
    ensures HeadingLevel(line) > 0 ==> HashPrefix(line, HeadingLevel(line))
    ensures forall n :: 1 <= n <= 6 && HashPrefix(line, n) ==> HeadingLevel(line) == n
  {
    HeadingTestSpec(line, 6);
  }

  /**
   * A line is an `<hn>` heading, 1 <= n <= 6, exactly when it starts with n
   * hashes and a space; the heading text is what follows that prefix. So
   * "###### x" is an `<h6>` with text "x", never an `<h1>`.
   */
  lemma ClassifyHeading(line: string, n: nat)
    requires 1 <= n <= 6
    ensures HashPrefix(line, n) ==> Classify(line) == Heading(n, line[n + 1..])
    ensures Classify(line).Heading? && Classify(line).level == n ==> HashPrefix(line, n)
    ensures Classify(line).Heading? ==> 1 <= Classify(line).level <= 6
  {
    HeadingLevelSpec(line);
  }

  /** A line that starts with a character other than '#' is no heading. */
  lemma NoHeading(line: string)
    requires |line| == 0 || line[0] != '#'
    ensures HeadingLevel(line) == 0
  {
    HeadingLevelSpec(line);
  }

  /** List items are exactly the lines starting "* "; the item text follows that prefix. */
  lemma ClassifyItem(line: string)
    ensures Classify(line).Item? <==> "* " <= line
    ensures "* " <= line ==> Classify(line) == Item(line[2..])
  {
    if "* " <= line {
      assert line[0] == '*';
    }
    if |line| == 0 || line[0] != '#' {
      NoHeading(line);
    } else {
      assert !("* " <= line);
    }
  }

  /** Table rows are exactly the lines starting "|". */
  lemma ClassifyRow(line: string)
    ensures Classify(line).Row? <==> "|" <= line
    ensures "|" <= line ==> Classify(line) == Row(line)
  {
    if "|" <= line {
      assert line[0] == '|';
    }
    if |line| == 0 || line[0] != '#' {
      NoHeading(line);
    }
  }

  /**
   * The fallbacks: "---" gives a rule, a leading "/" passes the rest through,
   * a leading "\" makes a paragraph of the rest trimmed again, and a line no
   * earlier rule applies to is a paragraph as it stands.
   */
  lemma ClassifyFallbacks(line: string)
    ensures "---" <= line ==> Classify(line) == Rule
    ensures "/" <= line ==> Classify(line) == Raw(line[1..])
    ensures "\\" <= line ==> Classify(line) == Paragraph(Trim(line[1..]))
    ensures |line| > 0 && line[0] !in "#*|-/\\" ==> Classify(line) == Paragraph(line)
    ensures (forall n :: 1 <= n <= 6 ==> !HashPrefix(line, n))
      && !("* " <= line) && !("|" <= line) && !("---" <= line) && !("/" <= line) && !("\\" <= line)
      ==> Classify(line) == Paragraph(line)
  {
    HeadingLevelSpec(line);
    if |line| > 0 && line[0] != '#' {
      NoHeading(line);
    }
    if |line| > 0 {
      if "---" <= line {
        assert line[0] == '-';
      }
      if "/" <= line {
        assert line[0] == '/';
      }
      if "\\" <= line {
        assert line[0] == '\\';
      }
    }
  }

  /** A line of blanks only trims to "" and becomes an empty paragraph. */
  lemma BlankLineIsEmptyParagraph(piece: string)
    requires AllBlank(piece)
    ensures Classify(Trim(piece)) == Paragraph("")
  {
    TrimEmptyIffBlank(piece);
    NoHeading("");
  }

  // ---- The fold ----

  /** The parser's state between lines: the two flags and the blocks emitted so far. */
  datatype State = State(listOpen: bool, tableOpen: bool, out: seq<Block>)

  const Start := State(false, false, [])

  function Last(pieces: seq<string>): string
    requires |pieces| > 0
  {
    pieces[|pieces| - 1]
  }

  predicate IsItemLine(piece: string) {
    "* " <= Trim(piece)
  }

  predicate IsRowLine(piece: string) {
    "|" <= Trim(piece)
  }

  /** Before a trimmed line is classified: close the open list unless the line is an item, then the open table unless it is a row. */
  function Closings(st: State, line: string): seq<Block> {
    (if st.listOpen && !("* " <= line) then [ListClose] else [])
    + (if st.tableOpen && !("|" <= line) then [TableClose] else [])
  }

  /** An item opens a list unless one is open; a row opens a table unless one is open. */
  function Openings(st: State, line: string): seq<Block> {
    var b := Classify(line);
    if b.Item? && !st.listOpen then [ListOpen]
    else if b.Row? && !st.tableOpen then [TableOpen]
    else []
  }

  /** What one loop iteration emits for a trimmed line: closings, openings, then the line's own block. */
  function Emit(st: State, line: string): seq<Block> {
    Closings(st, line) + Openings(st, line) + [Classify(line)]
  }

  /**
   * One loop iteration on a raw line: trim it, emit, and update the flags.
   * Afterwards a list is open exactly when the line was an item and a table
   * exactly when it was a row, whatever was open before.
   */
  function Step(st: State, piece: string): (r: State)
    ensures r.listOpen <==> IsItemLine(piece)
    ensures r.tableOpen <==> IsRowLine(piece)
    ensures r.out == st.out + Emit(st, Trim(piece))
  {
    var line := Trim(piece);
    var b := Classify(line);
    ClassifyItem(line);
    ClassifyRow(line);
    State((st.listOpen && "* " <= line) || b.Item?,
          (st.tableOpen && "|" <= line) || b.Row?,
          st.out + Emit(st, line))
  }

  /**
   * The state after the loop has seen `pieces`. A list is open exactly when the
   * last line was an item and a table exactly when it was a row, so the two are
   * never open together.
   */
  function Run(pieces: seq<string>): (st: State)
    ensures st.listOpen <==> |pieces| > 0 && IsItemLine(Last(pieces))
    ensures st.tableOpen <==> |pieces| > 0 && IsRowLine(Last(pieces))
    ensures !(st.listOpen && st.tableOpen)
    ensures |st.out| >= |pieces|
  {
    if |pieces| == 0 then Start
    else
      var line := Trim(Last(pieces));
      ClassifyItem(line);
      ClassifyRow(line);
      Step(Run(pieces[..|pieces| - 1]), Last(pieces))
  }

  /** The closings `parse` emits after the loop: the open list, then the open table. */
  function Final(st: State): seq<Block> {
    (if st.listOpen then [ListClose] else []) + (if st.tableOpen then [TableClose] else [])
  }

  /** All block events `parse` emits for the input lines `pieces`: at least one per line, none without lines. */
  function Events(pieces: seq<string>): (bs: seq<Block>)
    ensures |bs| >= |pieces|
    ensures |pieces| == 0 ==> bs == []
  {
    Run(pieces).out + Final(Run(pieces))
  }

  /**
   * Before a line, an open list is closed exactly when the line is not an
   * item and an open table exactly when it is not a row, the list first.
   */
  lemma ClosingsSpec(st: State, line: string)
    ensures ListClose in Closings(st, line) <==> st.listOpen && !("* " <= line)
    ensures TableClose in Closings(st, line) <==> st.tableOpen && !("|" <= line)
    ensures var c := Closings(st, line); c == [] || c == [ListClose] || c == [TableClose] || c == [ListClose, TableClose]
  {
  }

  /** A list is opened exactly for an item when none is open, a table exactly for a row when none is open; never both. */
  lemma OpeningsSpec(st: State, line: string)
    ensures Openings(st, line) == [ListOpen] <==> "* " <= line && !st.listOpen
    ensures Openings(st, line) == [TableOpen] <==> "|" <= line && !st.tableOpen
    ensures var o := Openings(st, line); o == [] || o == [ListOpen] || o == [TableOpen]
  {
    ClassifyItem(line);
    ClassifyRow(line);
  }

  /** A line's events end with its own block, and everything before it opens or closes a structure. */
  lemma EmitSpec(st: State, line: string)
    ensures var e := Emit(st, line); |e| >= 1 && e[|e| - 1] == Classify(line)
    ensures var e := Emit(st, line); forall k :: 0 <= k < |e| - 1 ==> e[k].IsStructural()
  {
    ClosingsSpec(st, line);
    OpeningsSpec(st, line);
  }

  /** At the end of input the open list is closed, then the open table, and nothing else. */
  lemma FinalSpec(st: State)
    ensures ListClose in Final(st) <==> st.listOpen
    ensures TableClose in Final(st) <==> st.tableOpen
    ensures var f := Final(st); f == [] || f == [ListClose] || f == [TableClose] || f == [ListClose, TableClose]
  {
  }

  // ---- Nesting ----

  /** Which structures are open while the emitted blocks are read back. */
  datatype Nesting = Nesting(inList: bool, inTable: bool)

  const Outside := Nesting(false, false)

  /**
   * Reading one block back: a list or table opens only outside both, closes
   * only when open; items appear only in a list, rows only in a table, and any
   * other block only outside both. None: the block is out of place.
   */
  function Admit(n: Nesting, b: Block): Option<Nesting> {
    match b
    case ListOpen => if !n.inList && !n.inTable then Some(Nesting(true, false)) else None
    case ListClose => if n.inList then Some(Nesting(false, n.inTable)) else None
    case TableOpen => if !n.inList && !n.inTable then Some(Nesting(false, true)) else None
    case TableClose => if n.inTable then Some(Nesting(n.inList, false)) else None
    case Item(_) => if n.inList then Some(n) else None
    case Row(_) => if n.inTable then Some(n) else None
    case _ => if !n.inList && !n.inTable then Some(n) else None
  }

  function Replay(n: Nesting, bs: seq<Block>): Option<Nesting>
    decreases |bs|
  {
    if |bs| == 0 then Some(n)
    else
      match Admit(n, bs[0])
      case None => None
      case Some(m) => Replay(m, bs[1..])
  }

  /** Reading back `a + b` is reading back `a`, then `b` from where `a` left off. */
  function Then(r: Option<Nesting>, b: seq<Block>): Option<Nesting> {
    match r
    case None => None
    case Some(m) => Replay(m, b)
  }

  lemma {:induction false} ReplayAppend(n: Nesting, a: seq<Block>, b: seq<Block>)
    ensures Replay(n, a + b) == Then(Replay(n, a), b)
    decreases |a|
  {
    if |a| == 0 {
      assert a + b == b;
    } else {
      assert (a + b)[1..] == a[1..] + b;
      match Admit(n, a[0])
      case None =>
      case Some(m) => ReplayAppend(m, a[1..], b);
    }
  }

  lemma ReplayOne(n: Nesting, x: Block)
    ensures Replay(n, [x]) == Admit(n, x)
  {
    assert [x][1..] == [];
  }

  lemma StepNested(st: State, piece: string)
    requires !(st.listOpen && st.tableOpen)
    ensures Replay(Nesting(st.listOpen, st.tableOpen), Emit(st, Trim(piece)))
         == Some(Nesting(Step(st, piece).listOpen, Step(st, piece).tableOpen))
  {
    var line := Trim(piece);
    ClassifyItem(line);
    ClassifyRow(line);
    var b := Classify(line);
    var n := Nesting(st.listOpen, st.tableOpen);
    var c := Closings(st, line);
    var o := Openings(st, line);
    ReplayAppend(n, c + o, [b]);
    ReplayAppend(n, c, o);
    var nc := Nesting(st.listOpen && "* " <= line, st.tableOpen && "|" <= line);
    assert Replay(n, c) == Some(nc) by {
      if st.listOpen && !("* " <= line) {
        ReplayOne(n, ListClose);
        if st.tableOpen && !("|" <= line) {
          assert false;
        }
        assert c == [ListClose];
      } else if st.tableOpen && !("|" <= line) {
        ReplayOne(n, TableClose);
        assert c == [TableClose];
      } else {
        assert c == [];
      }
    }
    var no := Nesting(nc.inList || b.Item?, nc.inTable || b.Row?);
    assert Replay(nc, o) == Some(no) by {
      if o == [] {
      } else {
        ReplayOne(nc, o[0]);
        assert o == [o[0]];
      }
    }
    ReplayOne(no, b);
  }

  /** While the loop runs, what it has emitted reads back with exactly the structures its flags say are open. */
  lemma {:induction false} RunNested(pieces: seq<string>)
    ensures Replay(Outside, Run(pieces).out) == Some(Nesting(Run(pieces).listOpen, Run(pieces).tableOpen))
  {
    if |pieces| > 0 {
      var prev := pieces[..|pieces| - 1];
      RunNested(prev);
      var st := Run(prev);
      StepNested(st, Last(pieces));
      ReplayAppend(Outside, st.out, Emit(st, Trim(Last(pieces))));
    }
  }

  /**
   * Everything `parse` emits is well nested: every list and table is opened
   * outside any other, closed once, and left closed at the end; items sit
   * only in lists, rows only in tables, every other block outside both.
   */
  lemma BlocksWellNested(pieces: seq<string>)
    ensures Replay(Outside, Events(pieces)) == Some(Outside)
  {
    RunNested(pieces);
    var st := Run(pieces);
    ReplayAppend(Outside, st.out, Final(st));
    var n := Nesting(st.listOpen, st.tableOpen);
    if st.listOpen {
      assert Final(st) == [ListClose];
      ReplayOne(n, ListClose);
    } else if st.tableOpen {
      assert Final(st) == [TableClose];
      ReplayOne(n, TableClose);
    } else {
      assert Final(st) == [];
    }
  }

  // ---- Counting ----

  /** How many times `x` occurs in `bs`. */
  function Count(bs: seq<Block>, x: Block): nat {
    if |bs| == 0 then 0 else (if bs[0] == x then 1 else 0) + Count(bs[1..], x)
  }

  lemma {:induction false} CountAppend(a: seq<Block>, b: seq<Block>, x: Block)
    ensures Count(a + b, x) == Count(a, x) + Count(b, x)
  {
    if |a| == 0 {
      assert a + b == b;
    } else {
      assert (a + b)[1..] == a[1..] + b;
      CountAppend(a[1..], b, x);
    }
  }

  function Bit(b: bool): nat {
    if b then 1 else 0
  }

  /** Reading back, openings minus closings is how many structures were opened on the way. */
  lemma {:induction false} ReplayCounts(n: Nesting, bs: seq<Block>, m: Nesting)
    requires Replay(n, bs) == Some(m)
    ensures Count(bs, ListOpen) + Bit(n.inList) == Count(bs, ListClose) + Bit(m.inList)
    ensures Count(bs, TableOpen) + Bit(n.inTable) == Count(bs, TableClose) + Bit(m.inTable)
    decreases |bs|
  {
    if |bs| > 0 {
      var k :| Admit(n, bs[0]) == Some(k);
      ReplayCounts(k, bs[1..], m);
    }
  }

  /** Every `<ul…>` gets exactly one `</ul>` and every `<div…><table…>` one `</table></div>`. */
  lemma BlocksBalanced(pieces: seq<string>)
    ensures Count(Events(pieces), ListOpen) == Count(Events(pieces), ListClose)
    ensures Count(Events(pieces), TableOpen) == Count(Events(pieces), TableClose)
  {
    BlocksWellNested(pieces);
    ReplayCounts(Outside, Events(pieces), Outside);
  }

  /** How many maximal runs of consecutive lines satisfy `p`. */
  function Runs(pieces: seq<string>, p: string -> bool): nat {
    if |pieces| == 0 then 0
    else
      var prev := pieces[..|pieces| - 1];
      Runs(prev, p) + (if p(Last(pieces)) && !(|prev| > 0 && p(Last(prev))) then 1 else 0)
  }

  lemma StepOpens(st: State, piece: string)
    ensures Count(Emit(st, Trim(piece)), ListOpen) == (if IsItemLine(piece) && !st.listOpen then 1 else 0)
    ensures Count(Emit(st, Trim(piece)), TableOpen) == (if IsRowLine(piece) && !st.tableOpen then 1 else 0)
  {
    var line := Trim(piece);
    ClassifyItem(line);
    ClassifyRow(line);
    var c := Closings(st, line);
    var o := Openings(st, line);
    var b := Classify(line);
    CountAppend(c + o, [b], ListOpen);
    CountAppend(c + o, [b], TableOpen);
    CountAppend(c, o, ListOpen);
    CountAppend(c, o, TableOpen);
    if b.Item? && !st.listOpen {
      assert o == [ListOpen];
    } else if b.Row? && !st.tableOpen {
      assert o == [TableOpen];
    } else {
      assert o == [];
    }
  }

  lemma {:induction false} RunOpens(pieces: seq<string>)
    ensures Count(Run(pieces).out, ListOpen) == Runs(pieces, IsItemLine)
    ensures Count(Run(pieces).out, TableOpen) == Runs(pieces, IsRowLine)
  {
    if |pieces| > 0 {
      var prev := pieces[..|pieces| - 1];
      RunOpens(prev);
      StepOpens(Run(prev), Last(pieces));
      var st := Run(prev);
      CountAppend(st.out, Emit(st, Trim(Last(pieces))), ListOpen);
      CountAppend(st.out, Emit(st, Trim(Last(pieces))), TableOpen);
    }
  }

  /**
   * Consecutive list items share one `<ul…>`: there is one list per maximal
   * run of "* " lines, and likewise one table per maximal run of "|" lines.
   */
  lemma OnePerRun(pieces: seq<string>)
    ensures Count(Events(pieces), ListOpen) == Runs(pieces, IsItemLine)
    ensures Count(Events(pieces), TableOpen) == Runs(pieces, IsRowLine)
  {
    RunOpens(pieces);
    CountAppend(Run(pieces).out, Final(Run(pieces)), ListOpen);
    CountAppend(Run(pieces).out, Final(Run(pieces)), TableOpen);
  }

  // ---- Content ----

  /** The blocks that belong to lines, in order, without openings and closings. */
  function Contents(bs: seq<Block>): seq<Block> {
    if |bs| == 0 then []
    else (if bs[0].IsStructural() then [] else [bs[0]]) + Contents(bs[1..])
  }

  lemma {:induction false} ContentsAppend(a: seq<Block>, b: seq<Block>)
    ensures Contents(a + b) == Contents(a) + Contents(b)
  {
    if |a| == 0 {
      assert a + b == b;
    } else {
      assert (a + b)[1..] == a[1..] + b;
      ContentsAppend(a[1..], b);
    }
  }

  /** Contents of a run of openings and closings only. */
  lemma ContentsStructural(bs: seq<Block>)
    requires |bs| <= 2 && forall i :: 0 <= i < |bs| ==> bs[i].IsStructural()
    ensures Contents(bs) == []
  {
    if |bs| > 0 {
      assert Contents(bs[1..]) == [] by {
        if |bs| == 2 {
          assert bs[1..][1..] == [];
        }
      }
    }
  }

  /** `f` applied to every line, in order. */
  function MapLines<B>(pieces: seq<string>, f: string -> B): (bs: seq<B>)
    ensures |bs| == |pieces|
  {
    if |pieces| == 0 then [] else MapLines(pieces[..|pieces| - 1], f) + [f(Last(pieces))]
  }

  lemma {:induction false} MapLinesAt<B>(pieces: seq<string>, f: string -> B, i: nat)
    requires i < |pieces|
    ensures MapLines(pieces, f)[i] == f(pieces[i])
  {
    var prev := pieces[..|pieces| - 1];
    if i < |prev| {
      MapLinesAt(prev, f, i);
      assert prev[i] == pieces[i];
    }
  }

  /** The block of one raw line: its classification once trimmed. */
  function LineBlock(piece: string): Block {
    Classify(Trim(piece))
  }

  /** The classification of every trimmed input line, in order. */
  function ClassifyAll(pieces: seq<string>): (bs: seq<Block>)
    ensures |bs| == |pieces|
  {
    MapLines(pieces, LineBlock)
  }

  lemma ClassifyAllSnoc(pieces: seq<string>)
    requires |pieces| > 0
    ensures ClassifyAll(pieces) == ClassifyAll(pieces[..|pieces| - 1]) + [Classify(Trim(Last(pieces)))]
  {
  }

  lemma ClassifyAllAt(pieces: seq<string>, i: nat)
    requires i < |pieces|
    ensures ClassifyAll(pieces)[i] == Classify(Trim(pieces[i]))
  {
    MapLinesAt(pieces, LineBlock, i);
  }

  lemma EmitContent(st: State, line: string)
    ensures Contents(Emit(st, line)) == [Classify(line)]
  {
    var c := Closings(st, line);
    var o := Openings(st, line);
    var b := Classify(line);
    ContentsAppend(c + o, [b]);
    ContentsAppend(c, o);
    ContentsStructural(c);
    ContentsStructural(o);
    assert [b][1..] == [];
  }

  lemma {:induction false} RunContent(pieces: seq<string>)
    ensures Contents(Run(pieces).out) == ClassifyAll(pieces)
  {
    if |pieces| > 0 {
      var prev := pieces[..|pieces| - 1];
      RunContent(prev);
      var st0 := Run(prev);
      var line := Trim(Last(pieces));
      assert Run(pieces).out == st0.out + Emit(st0, line);
      ClassifyAllSnoc(pieces);
      ContentsAppend(st0.out, Emit(st0, line));
      EmitContent(st0, line);
      }
  }

  /**
   * Apart from openings and closings, `parse` emits exactly one block per
   * input line, in order: the classification of that trimmed line.
   */
  lemma BlocksContent(pieces: seq<string>)
    ensures Contents(Events(pieces)) == ClassifyAll(pieces)
  {
    var st := Run(pieces);
    ContentsAppend(st.out, Final(st));
    ContentsStructural(Final(st));
    RunContent(pieces);
  }

  // ---- Runs of items and rows ----

  lemma ConsSnoc<T>(x: T, a: seq<T>, c: T)
    ensures ([x] + a) + ([] + [c]) == [x] + (a + [c])
  {
  }

  lemma AppendEmpty<T>(c: T)
    ensures [] + ([] + [c]) == [c] && [] + [c] == [c]
  {
  }

  /** An item line outside a table: it opens a list unless one is open, then adds its block. */
  lemma ItemStep(st: State, piece: string)
    requires IsItemLine(piece) && !st.tableOpen
    ensures Step(st, piece)
         == State(true, false, st.out + ((if st.listOpen then [] else [ListOpen]) + [Classify(Trim(piece))]))
  {
    var line := Trim(piece);
    ClassifyItem(line);
    assert Closings(st, line) == [];
    assert Openings(st, line) == (if st.listOpen then [] else [ListOpen]);
  }

  lemma {:induction false} ItemsRun(pieces: seq<string>)
    requires |pieces| > 0 && forall i :: 0 <= i < |pieces| ==> IsItemLine(pieces[i])
    ensures Run(pieces) == State(true, false, [ListOpen] + ClassifyAll(pieces))
  {
    var prev := pieces[..|pieces| - 1];
    var c := Classify(Trim(Last(pieces)));
    var before := ClassifyAll(prev);
    ClassifyAllSnoc(pieces);
    var st := Run(prev);
    assert Run(pieces) == Step(st, Last(pieces));
    if |prev| == 0 {
      assert st == Start;
      ItemStep(st, Last(pieces));
      assert before == [];
      AppendEmpty(c);
    } else {
      assert forall i :: 0 <= i < |prev| ==> prev[i] == pieces[i];
      ItemsRun(prev);
      ItemStep(st, Last(pieces));
      ConsSnoc(ListOpen, before, c);
    }
  }

  /**
   * Consecutive item lines form exactly one list, closed at the end of the
   * input, holding one item per line.
   */
  lemma ItemsFormOneList(pieces: seq<string>)
    requires |pieces| > 0 && forall i :: 0 <= i < |pieces| ==> IsItemLine(pieces[i])
    ensures Events(pieces) == [ListOpen] + ClassifyAll(pieces) + [ListClose]
  {
    ItemsRun(pieces);
    var st := Run(pieces);
    assert Final(st) == [ListClose];
    assert Events(pieces) == st.out + Final(st);
  }

  /** Each item line is classified as the item holding the text after its "* ". */
  lemma ItemsClassified(pieces: seq<string>)
    requires forall i :: 0 <= i < |pieces| ==> IsItemLine(pieces[i])
    ensures forall i :: 0 <= i < |pieces| ==> "* " <= Trim(pieces[i]) && ClassifyAll(pieces)[i] == Item(Trim(pieces[i])[2..])
  {
    forall i | 0 <= i < |pieces| ensures "* " <= Trim(pieces[i]) && ClassifyAll(pieces)[i] == Item(Trim(pieces[i])[2..]) {
      assert IsItemLine(pieces[i]);
      ClassifyAllAt(pieces, i);
      ClassifyItem(Trim(pieces[i]));
    }
  }

  /** A row line outside a list: it opens a table unless one is open, then adds its row. */
  lemma RowStep(st: State, piece: string)
    requires IsRowLine(piece) && !st.listOpen
    ensures Step(st, piece)
         == State(false, true, st.out + ((if st.tableOpen then [] else [TableOpen]) + [Classify(Trim(piece))]))
  {
    var line := Trim(piece);
    ClassifyRow(line);
    ClassifyItem(line);
    assert Closings(st, line) == [];
    assert Openings(st, line) == (if st.tableOpen then [] else [TableOpen]);
  }

  lemma {:induction false} RowsRun(pieces: seq<string>)
    requires |pieces| > 0 && forall i :: 0 <= i < |pieces| ==> IsRowLine(pieces[i])
    ensures Run(pieces) == State(false, true, [TableOpen] + ClassifyAll(pieces))
  {
    var prev := pieces[..|pieces| - 1];
    var c := Classify(Trim(Last(pieces)));
    var before := ClassifyAll(prev);
    ClassifyAllSnoc(pieces);
    var st := Run(prev);
    assert Run(pieces) == Step(st, Last(pieces));
    if |prev| == 0 {
      assert st == Start;
      RowStep(st, Last(pieces));
      assert before == [];
      AppendEmpty(c);
    } else {
      assert forall i :: 0 <= i < |prev| ==> prev[i] == pieces[i];
      RowsRun(prev);
      RowStep(st, Last(pieces));
      ConsSnoc(TableOpen, before, c);
    }
  }

  /**
   * Consecutive row lines form exactly one table, closed at the end of the
   * input, holding one row per line.
   */
  lemma RowsFormOneTable(pieces: seq<string>)
    requires |pieces| > 0 && forall i :: 0 <= i < |pieces| ==> IsRowLine(pieces[i])
    ensures Events(pieces) == [TableOpen] + ClassifyAll(pieces) + [TableClose]
  {
    RowsRun(pieces);
    var st := Run(pieces);
    assert Final(st) == [TableClose];
    assert Events(pieces) == st.out + Final(st);
  }

  /** Each row line is classified as the row holding the whole trimmed line. */
  lemma RowsClassified(pieces: seq<string>)
    requires forall i :: 0 <= i < |pieces| ==> IsRowLine(pieces[i])
    ensures forall i :: 0 <= i < |pieces| ==> ClassifyAll(pieces)[i] == Row(Trim(pieces[i]))
  {
    forall i | 0 <= i < |pieces| ensures ClassifyAll(pieces)[i] == Row(Trim(pieces[i])) {
      ClassifyAllAt(pieces, i);
      ClassifyRow(Trim(pieces[i]));
    }
  }
}

=== FILE: class_attr.dfy ===
/**
 * `OpxMarkUp::class`: the BEM-style ` class="..."` attribute spliced after a tag
 * name, derived from the caller's optional base class name and a suffix.
 */
module ClassAttr {
  import opened Options
  import opened Text

  /**
   * The BEM divider placed between the base and the suffix: "-" (a modifier)
   * when the base already names an element, i.e. contains "__"; "__" otherwise.
   */
  function Divider(base: string): (d: string)
    ensures d == "-" <==> Contains(base, "__")
    ensures d == "__" <==> !Contains(base, "__")
  {
    if IndexOf(base, "__").Some? then "-" else "__"
  }

  /** The attribute value: the base, then the divider and suffix when a suffix is given. */
  function Value(base: string, suffix: Option<string>): (v: string)
    ensures base <= v
    ensures suffix.None? ==> v == base
    ensures suffix.Some? ==> v[|base|..] == Divider(base) + suffix.value
  {
    match suffix
    case None => base
    case Some(x) => base + Divider(base) + x
  }

  /** ` class="v"`, with the leading space so it can follow a tag name directly. */
  function Wrap(v: string): string {
    " class=\"" + v + "\""
  }

  /**
   * `class($class, $suffix)`: null whenever the base is null, whatever the
   * suffix; otherwise the attribute carrying `Value(base, suffix)`. The suffix
   * is used as given (not trimmed).
   */
  function Class(base: Option<string>, suffix: Option<string>): (r: Option<string>)
    ensures r.None? <==> base.None?
    ensures r.Some? ==> r.value == Wrap(Value(base.value, suffix))
  {
    match base
    case None => None
    case Some(b) => Some(Wrap(Value(b, suffix)))
  }

  /** `self::class($class, 'suffix')` interpolated into a tag: a null result splices as "". */
  function Attr(base: Option<string>, suffix: string): (a: string)
    ensures base.None? ==> a == ""
    ensures base.Some? ==> a == Wrap(Value(base.value, Some(suffix)))
  {
    Class(base, Some(suffix)).GetOr("")
  }

  /** With a suffix, the class value always names a BEM element: it contains "__". */
  lemma ValueNamesElement(base: string, suffix: string)
    ensures Contains(Value(base, Some(suffix)), "__")
  {
    var v := Value(base, Some(suffix));
    if Contains(base, "__") {
      var i :| OccursAt(base, "__", i);
      assert v[i..i + 2] == base[i..i + 2];
      assert OccursAt(v, "__", i);
    } else {
      assert v[|base|..|base| + 2] == "__";
      assert OccursAt(v, "__", |base|);
    }
  }

  /** The attribute determines the suffix: different suffixes give different attributes. */
  lemma ClassSuffixInjective(base: string, x: string, y: string)
    requires Class(Some(base), Some(x)) == Class(Some(base), Some(y))
    ensures x == y
  {
    var vx := Value(base, Some(x));
    var vy := Value(base, Some(y));
    assert Wrap(vx) == Wrap(vy);
    assert |vx| == |vy|;
    assert vx == Wrap(vx)[8..8 + |vx|];
    assert vy == Wrap(vy)[8..8 + |vy|];
    var d := Divider(base);
    assert x == vx[|base| + |d|..];
    assert y == vy[|base| + |d|..];
  }
}

=== FILE: images.dfy ===
/**
 * `OpxMarkUp::replaceImages`: every `[img::payload]` (pattern `\[img::(.+)]`
 * with the ungreedy flag) becomes an `<img>` tag. The payload is at least one
 * character, ends at the first "]" after its first character, and never
 * crosses a line feed.
 */
module Images {
  import opened Options
  import opened Text
  import opened Scanning
  import ClassAttr

  /** What a match covers in the subject. */
  function ImageSource(payload: string): string {
    "[img::" + payload + "]"
  }

  /** `t` starts with an image whose closing "]" is at `k`, the shortest such. */
  predicate IsImageMatch(t: string, k: int) {
    && 7 <= k < |t|
    && t[..6] == "[img::"
    && t[k] == ']'
    && SameLine(t, 6, k)
    && (forall u :: 7 <= u < k ==> t[u] != ']')
  }

  /** The match at the start of `t`, if the pattern matches there: the position of its "]". */
  function ImageAt(t: string): (r: Option<nat>)
    ensures forall k :: IsImageMatch(t, k) <==> r == Some(k)
  {
    if |t| >= 7 && t[..6] == "[img::" && t[6] != '\n' then ScanTo(t, 7, ']') else None
  }

  /** A payload as the pattern captures it: non-empty, on one line, no "]" after its first character. */
  predicate IsPayload(p: string) {
    |p| > 0 && SameLine(p, 0, |p|) && forall u :: 1 <= u < |p| ==> p[u] != ']'
  }

  /** A match splits `t` into the image source of its payload and the rest. */
  lemma MatchSplit(t: string, k: nat)
    requires IsImageMatch(t, k)
    ensures IsPayload(t[6..k])
    ensures t == ImageSource(t[6..k]) + t[k + 1..]
  {
    var p := t[6..k];
    assert t == t[..6] + p + [t[k]] + t[k + 1..];
    forall u | 0 <= u < |p| ensures p[u] != '\n' { assert p[u] == t[6 + u]; }
    forall u | 1 <= u < |p| ensures p[u] != ']' { assert p[u] == t[6 + u]; }
  }

  /**
   * The matches of the image pattern in `t`, tried at every position from the
   * left. The pieces cover `t` exactly, every payload has the shape the lazy
   * pattern captures, and a text without "[" has no match.
   */
  function Scan(t: string): (ps: seq<Piece<string>>)
    ensures Flatten(ps, ImageSource) == t
    ensures forall i :: 0 <= i < |ps| && ps[i].Match? ==> IsPayload(ps[i].m)
    ensures '[' !in t ==> NoMatch(ps)
    decreases |t|
  {
    if |t| == 0 then []
    else
      match ImageAt(t)
      case Some(k) =>
        var rest := Scan(t[k + 1..]);
        MatchStep(t, k, rest);
        [Match(t[6..k])] + rest
      case None =>
        var rest := Scan(t[1..]);
        PlainStep(t, rest);
        [Plain(t[0])] + rest
  }

  /** Every match in `ps` carries a payload of the captured shape. */
  predicate Payloads(ps: seq<Piece<string>>) {
    forall i :: 0 <= i < |ps| && ps[i].Match? ==> IsPayload(ps[i].m)
  }

  lemma MatchStep(t: string, k: nat, rest: seq<Piece<string>>)
    requires IsImageMatch(t, k)
    requires Flatten(rest, ImageSource) == t[k + 1..] && Payloads(rest)
    ensures Flatten([Match(t[6..k])] + rest, ImageSource) == t
    ensures Payloads([Match(t[6..k])] + rest)
    ensures '[' in t
  {
    var ps := [Match(t[6..k])] + rest;
    assert ps[1..] == rest;
    MatchSplit(t, k);
    assert t[0] == '[' by { assert t[..6][0] == t[0]; }
    forall i | 0 <= i < |ps| && ps[i].Match? ensures IsPayload(ps[i].m) {
      if i > 0 { assert ps[i] == rest[i - 1]; }
    }
  }

  lemma PlainStep(t: string, rest: seq<Piece<string>>)
    requires |t| > 0
    requires Flatten(rest, ImageSource) == t[1..] && Payloads(rest)
    requires '[' !in t[1..] ==> NoMatch(rest)
    ensures Flatten([Plain(t[0])] + rest, ImageSource) == t
    ensures Payloads([Plain(t[0])] + rest)
    ensures '[' !in t ==> NoMatch([Plain(t[0])] + rest)
  {
    var ps := [Plain(t[0])] + rest;
    assert ps[1..] == rest;
    assert t == [t[0]] + t[1..];
    forall i | 0 <= i < |ps| && ps[i].Match? ensures IsPayload(ps[i].m) {
      assert ps[i] == rest[i - 1];
    }
    if '[' !in t {
      assert '[' !in t[1..];
      forall i | 0 <= i < |ps| ensures ps[i].Plain? {
        if i > 0 { assert ps[i] == rest[i - 1]; }
      }
    }
  }

  /** Where a piece says the pattern matches: nowhere for a plain character, up to the "]" for a match. */
  function Extent(p: Piece<string>): Option<nat> {
    match p
    case Plain(_) => None
    case Match(m) => Some(6 + |m|)
  }

  lemma {:induction false} ScanTried(t: string)
    ensures TriedEverywhere(Scan(t), ImageSource, ImageAt, Extent)
    decreases |t|
  {
    if |t| > 0 {
      var ps := Scan(t);
      match ImageAt(t)
      case Some(k) =>
        var x := Match(t[6..k]);
        assert ps == [x] + Scan(t[k + 1..]);
        assert IsImageMatch(t, k);
        assert Extent(x) == Some(k);
        ScanTried(t[k + 1..]);
        TriedCons(x, Scan(t[k + 1..]), ImageSource, ImageAt, Extent);
      case None =>
        var x := Plain(t[0]);
        assert ps == [x] + Scan(t[1..]);
        ScanTried(t[1..]);
        TriedCons(x, Scan(t[1..]), ImageSource, ImageAt, Extent);
    }
  }

  /**
   * The scan tries the pattern at every position, leftmost first: from each
   * piece onwards the pattern's match is what the piece says, none where a
   * plain character stands and exactly that payload where a match stands.
   */
  lemma ScanLeftmost(t: string)
    ensures forall i :: 0 <= i < |Scan(t)| ==> ImageAt(Flatten(Scan(t)[i..], ImageSource)) == Extent(Scan(t)[i])
  {
    ScanTried(t);
  }

  /** The options of an `[img::…]`: source, alternative text and optional alignment. */
  datatype ImageOptions = ImageOptions(src: string, alt: string, align: Option<string>)

  /**
   * `explode('::', payload)`: the source is the first part, the alternative
   * text the second (defaulting to the source), the alignment the third,
   * lower-cased; further parts are ignored and a missing one is null.
   */
  function ParseOptions(payload: string): (o: ImageOptions)
    ensures IndexOf(payload, "::").None? ==> o == ImageOptions(payload, payload, None)
    ensures IndexOf(payload, "::").Some? ==> o.src == payload[..IndexOf(payload, "::").value]
    ensures o.align.Some? ==> forall i :: 0 <= i < |o.align.value| ==> !('A' <= o.align.value[i] <= 'Z')
  {
    var parts := Explode(payload, "::");
    ImageOptions(parts[0], if |parts| > 1 then parts[1] else parts[0], if |parts| > 2 then Some(Lower(parts[2])) else None)
  }

  /** The options written back as a payload. */
  function FormatOptions(src: string, alt: string, align: string): string {
    src + "::" + alt + "::" + align
  }

  /** A part that can be written into a payload and read back: no "::" in it and no ':' at its end. */
  ghost predicate IsPart(p: string) {
    (forall j :: !OccursAt(p, "::", j)) && (|p| == 0 || p[|p| - 1] != ':')
  }

  lemma ExplodeFirst(p: string, rest: string)
    requires IsPart(p)
    ensures Explode(p + "::" + rest, "::") == [p] + Explode(rest, "::")
  {
    var s := p + "::" + rest;
    assert OccursAt(s, "::", |p|) by { assert s[|p|..|p| + 2] == "::"; }
    forall j | 0 <= j < |p| ensures !OccursAt(s, "::", j) {
      if j + 2 <= |p| {
        assert s[j..j + 2] == p[j..j + 2];
        assert !OccursAt(p, "::", j);
      } else {
        assert s[j..j + 2][0] == s[j] == p[|p| - 1];
      }
    }
    assert IndexOf(s, "::") == Some(|p|);
    assert s[..|p|] == p;
    assert s[|p| + 2..] == rest;
  }

  /** Reading options back from the payload they were written into gives them back, the alignment lower-cased. */
  lemma OptionsRoundTrip(src: string, alt: string, align: string)
    requires IsPart(src) && IsPart(alt) && forall j :: !OccursAt(align, "::", j)
    ensures ParseOptions(FormatOptions(src, alt, align)) == ImageOptions(src, alt, Some(Lower(align)))
  {
    var payload := FormatOptions(src, alt, align);
    assert src + "::" + (alt + "::" + align) == payload;
    ExplodeFirst(src, alt + "::" + align);
    ExplodeFirst(alt, align);
    assert IndexOf(align, "::").None?;
    assert Explode(align, "::") == [align];
    assert Explode(payload, "::") == [src, alt, align];
  }

  /** With two parts the second is the alternative text and there is no alignment. */
  lemma TwoPartOptions(src: string, alt: string)
    requires IsPart(src) && forall j :: !OccursAt(alt, "::", j)
    ensures ParseOptions(src + "::" + alt) == ImageOptions(src, alt, None)
  {
    ExplodeFirst(src, alt);
    assert IndexOf(alt, "::").None?;
    assert Explode(alt, "::") == [alt];
    assert Explode(src + "::" + alt, "::") == [src, alt];
  }

  /** Parts after the third do not change the options. */
  lemma ExtraPartsIgnored(src: string, alt: string, align: string, extra: string)
    requires IsPart(src) && IsPart(alt) && IsPart(align)
    ensures ParseOptions(FormatOptions(src, alt, align) + "::" + extra) == ImageOptions(src, alt, Some(Lower(align)))
  {
    ExplodeThree(src, alt, align, extra);
    ThreeParts(FormatOptions(src, alt, align) + "::" + extra, src, alt, align, Explode(extra, "::"));
  }

  /** Only the first three parts decide the options. */
  lemma ThreeParts(payload: string, src: string, alt: string, align: string, more: seq<string>)
    requires Explode(payload, "::") == [src, alt, align] + more
    ensures ParseOptions(payload) == ImageOptions(src, alt, Some(Lower(align)))
  {
    var parts := Explode(payload, "::");
    assert |parts| > 2 && parts[0] == src && parts[1] == alt && parts[2] == align;
  }

  lemma ExplodeThree(a: string, b: string, c: string, rest: string)
    requires IsPart(a) && IsPart(b) && IsPart(c)
    ensures Explode(FormatOptions(a, b, c) + "::" + rest, "::") == [a, b, c] + Explode(rest, "::")
  {
    FormatNested(a, b, c, rest);
    var r2 := c + "::" + rest;
    var r1 := b + "::" + r2;
    ExplodeFirst(a, r1);
    ExplodeFirst(b, r2);
    ExplodeFirst(c, rest);
    assert [a] + ([b] + ([c] + Explode(rest, "::"))) == [a, b, c] + Explode(rest, "::");
  }

  lemma FormatNested(a: string, b: string, c: string, rest: string)
    ensures FormatOptions(a, b, c) + "::" + rest == a + "::" + (b + "::" + (c + "::" + rest))
  {
  }

  predicate IsAlignment(a: string) {
    a == "left" || a == "right" || a == "center"
  }

  /**
   * The presentational attribute of the tag. Without a base class: a float
   * for left and right, auto margins for center, nothing otherwise. With a
   * base class: the element class `<base><divider>img`, plus the modifier
   * token `<base><divider>img-<align>` only for the three known alignments.
   */
  function Styling(align: Option<string>, base: Option<string>): (st: string)
    ensures base.None? && align.Some? && (align.value == "left" || align.value == "right") ==>
              st == " style=\"float:" + align.value + "\""
    ensures base.None? && align == Some("center") ==> st == " style=\"margin:0 auto\""
    ensures base.None? && !(align.Some? && IsAlignment(align.value)) ==> st == ""
    ensures base.Some? && !(align.Some? && IsAlignment(align.value)) ==>
              st == ClassAttr.Attr(base, "img")
    ensures base.Some? && align.Some? && IsAlignment(align.value) ==>
              st == ClassAttr.Wrap(ClassAttr.Value(base.value, Some("img")) + " "
                                   + ClassAttr.Value(base.value, Some("img-" + align.value)))
  {
    match base
    case None =>
      if align.Some? && (align.value == "left" || align.value == "right") then " style=\"float:" + align.value + "\""
      else if align.Some? && align.value == "center" then " style=\"margin:0 auto\""
      else ""
    case Some(b) =>
      var d := ClassAttr.Divider(b);
      var extra := if align.Some? && IsAlignment(align.value) then " " + b + d + "img-" + align.value else "";
      " class=\"" + b + d + "img" + extra + "\""
  }

  /** The `<img>` tag for one payload; a payload without "::" is both the source and the alternative text. */
  function Tag(payload: string, base: Option<string>): (r: string)
    ensures "<img" <= r && r[|r| - 1] == '>'
    ensures IndexOf(payload, "::").None?
            ==> r == "<img" + Styling(None, base) + " src=\"" + payload + "\" alt=\"" + payload + "\">"
  {
    var o := ParseOptions(payload);
    "<img" + Styling(o.align, base) + " src=\"" + o.src + "\" alt=\"" + o.alt + "\">"
  }

  function Callback(base: Option<string>): string -> string {
    p => Tag(p, base)
  }

  /** The text with every image pseudo-tag replaced; text without "[" passes through unchanged. */
  function Replace(text: string, base: Option<string>): (r: string)
    ensures '[' !in text ==> r == text
  {
    var r := Flatten(Scan(text), Callback(base));
    assert '[' !in text ==> r == text by {
      if '[' !in text { FlattenNoMatch(Scan(text), Callback(base), ImageSource); }
    }
    r
  }

  /** A text that is exactly one image pseudo-tag becomes exactly its `<img>` tag. */
  lemma ReplaceSingle(payload: string, base: Option<string>)
    requires IsPayload(payload)
    ensures Replace(ImageSource(payload), base) == Tag(payload, base)
  {
    var t := ImageSource(payload);
    var k := |t| - 1;
    assert t[..6] == "[img::";
    forall u | 6 <= u < k ensures t[u] != '\n' { assert t[u] == payload[u - 6]; }
    forall u | 7 <= u < k ensures t[u] != ']' { assert t[u] == payload[u - 6]; }
    assert IsImageMatch(t, k);
    assert t[6..k] == payload;
    assert t[k + 1..] == [];
    assert Scan([]) == [];
    assert Scan(t) == [Match(payload)];
    var ps := [Match(payload)];
    assert ps[1..] == [];
    assert Flatten(ps, Callback(base)) == Tag(payload, base) + Flatten([], Callback(base));
  }

  /** A text without ':' can be a part of a payload. */
  lemma NoColonIsPart(p: string)
    requires ':' !in p
    ensures IsPart(p)
  {
    forall j ensures !OccursAt(p, "::", j) {
      if 0 <= j && j + 2 <= |p| {
        assert p[j..j + 2][0] == p[j];
        assert p[j] in p;
      }
    }
  }

  lemma CentredOptions()
    ensures ParseOptions("pic.png::A cat::center") == ImageOptions("pic.png", "A cat", Some("center"))
  {
    NoColonIsPart("pic.png");
    NoColonIsPart("A cat");
    NoColonIsPart("center");
    assert FormatOptions("pic.png", "A cat", "center") == "pic.png::A cat::center";
    OptionsRoundTrip("pic.png", "A cat", "center");
    CenterIsLowerCase();
  }

  lemma CenterIsLowerCase()
    ensures Lower("center") == "center"
  {
    LowerKeeps("center");
  }

  /** "[img::pic.png::A cat::center]" without a base class is a centred image. */
  lemma CentredImage()
    ensures Tag("pic.png::A cat::center", None)
         == "<img" + " style=\"margin:0 auto\"" + " src=\"" + "pic.png" + "\" alt=\"" + "A cat" + "\">"
  {
    CentredOptions();
  }
}

=== FILE: lines.dfy ===
/**
 * `preg_split("/\r\n|\n/", $content, -1, PREG_SPLIT_NO_EMPTY)`: cut the input
 * at every "\r\n" or lone "\n" and drop the empty pieces. A lone "\r" is not a
 * line break.
 */
module Lines {
  import opened Options

  /** Length of the line break starting at `i`: 2 for "\r\n", 1 for "\n", 0 if none. */
  function BreakLen(s: string, i: nat): (n: nat)
    requires i < |s|
    ensures n <= |s| - i
  {
    if s[i] == '\r' && i + 1 < |s| && s[i + 1] == '\n' then 2
    else if s[i] == '\n' then 1
    else 0
  }

  /** The leftmost position at or after `from` where a line break starts. */
  function NextBreak(s: string, from: nat): (r: Option<nat>)
    requires from <= |s|
    ensures r.Some? ==> from <= r.value < |s| && BreakLen(s, r.value) > 0
    ensures r.Some? ==> forall t :: from <= t < r.value ==> BreakLen(s, t) == 0
    ensures r.None? ==> forall t :: from <= t < |s| ==> BreakLen(s, t) == 0
    decreases |s| - from
  {
    if from == |s| then None
    else if BreakLen(s, from) > 0 then Some(from)
    else NextBreak(s, from + 1)
  }

  predicate NoNewline(s: string) {
    forall i :: 0 <= i < |s| ==> s[i] != '\n'
  }

  /** The pieces between line breaks, empty ones included (`preg_split` without flags). */
  function Pieces(s: string): (ps: seq<string>)
    ensures |ps| >= 1
    ensures forall k :: 0 <= k < |ps| ==> NoNewline(ps[k])
    decreases |s|
  {
    match NextBreak(s, 0)
    case None =>
      assert forall t :: 0 <= t < |s| ==> BreakLen(s, t) == 0 ==> s[t] != '\n';
      [s]
    case Some(j) =>
      assert forall t :: 0 <= t < j ==> BreakLen(s, t) == 0 ==> s[t] != '\n';
      [s[..j]] + Pieces(s[j + BreakLen(s, j)..])
  }

  function DropEmpty(ps: seq<string>): (qs: seq<string>)
    ensures |qs| <= |ps|
    ensures forall k :: 0 <= k < |qs| ==> qs[k] != [] && qs[k] in ps
    ensures forall k :: 0 <= k < |ps| && ps[k] != [] ==> ps[k] in qs
  {
    if |ps| == 0 then []
    else if ps[0] == [] then DropEmpty(ps[1..])
    else [ps[0]] + DropEmpty(ps[1..])
  }

  /** The lines `parse` iterates over: non-empty and free of line feeds. */
  function SplitLines(s: string): (ls: seq<string>)
    ensures forall k :: 0 <= k < |ls| ==> ls[k] != [] && NoNewline(ls[k])
  {
    DropEmpty(Pieces(s))
  }

  /** Lines written out one per row, each terminated by "\r\n". */
  function JoinCrlf(ls: seq<string>): string {
    if |ls| == 0 then "" else ls[0] + "\r\n" + JoinCrlf(ls[1..])
  }

  lemma PiecesOfLine(l: string, rest: string)
    requires NoNewline(l)
    ensures Pieces(l + "\r\n" + rest) == [l] + Pieces(rest)
  {
    var s := l + "\r\n" + rest;
    forall t | 0 <= t < |l|
      ensures BreakLen(s, t) == 0
    {
      assert s[t] == l[t];
      if t + 1 < |l| { assert s[t + 1] == l[t + 1]; } else { assert s[t + 1] == '\r'; }
    }
    assert BreakLen(s, |l|) == 2;
    assert NextBreak(s, 0) == Some(|l|);
    assert s[..|l|] == l;
    assert s[|l| + 2..] == rest;
  }

  /**
   * Splitting undoes writing out: lines that are non-empty and free of line
   * feeds come back unchanged (a lone "\r" inside or at the end of a line stays).
   */
  lemma {:induction false} SplitJoinCrlf(ls: seq<string>)
    requires forall k :: 0 <= k < |ls| ==> ls[k] != [] && NoNewline(ls[k])
    ensures SplitLines(JoinCrlf(ls)) == ls
  {
    if |ls| == 0 {
      assert NextBreak("", 0) == None;
      assert Pieces("") == [""];
      assert DropEmpty([""]) == DropEmpty([]);
    } else {
      PiecesOfLine(ls[0], JoinCrlf(ls[1..]));
      SplitJoinCrlf(ls[1..]);
      var ps := [ls[0]] + Pieces(JoinCrlf(ls[1..]));
      assert ps[1..] == Pieces(JoinCrlf(ls[1..]));
      assert DropEmpty(ps) == [ls[0]] + DropEmpty(ps[1..]);
    }
  }

  /** Lines written out one per row, each terminated by a bare "\n". */
  function JoinLf(ls: seq<string>): string {
    if |ls| == 0 then "" else ls[0] + "\n" + JoinLf(ls[1..])
  }

  /** A line that ends in "\r" would lose it: the "\r" and the "\n" after it make one break. */
  predicate EndsInCr(l: string) {
    |l| > 0 && l[|l| - 1] == '\r'
  }

  lemma PiecesOfLfLine(l: string, rest: string)
    requires NoNewline(l) && !EndsInCr(l)
    ensures Pieces(l + "\n" + rest) == [l] + Pieces(rest)
  {
    var s := l + "\n" + rest;
    forall t | 0 <= t < |l|
      ensures BreakLen(s, t) == 0
    {
      assert s[t] == l[t];
      if t + 1 < |l| { assert s[t + 1] == l[t + 1]; } else { assert s[t] != '\r'; }
    }
    assert BreakLen(s, |l|) == 1;
    assert NextBreak(s, 0) == Some(|l|);
    assert s[..|l|] == l;
    assert s[|l| + 1..] == rest;
  }

  /**
   * The same round trip with "\n" as terminator, for lines that do not end
   * in "\r".
   */
  lemma {:induction false} SplitJoinLf(ls: seq<string>)
    requires forall k :: 0 <= k < |ls| ==> ls[k] != [] && NoNewline(ls[k]) && !EndsInCr(ls[k])
    ensures SplitLines(JoinLf(ls)) == ls
  {
    if |ls| == 0 {
      assert NextBreak("", 0) == None;
      assert Pieces("") == [""];
      assert DropEmpty([""]) == DropEmpty([]);
    } else {
      PiecesOfLfLine(ls[0], JoinLf(ls[1..]));
      SplitJoinLf(ls[1..]);
      var ps := [ls[0]] + Pieces(JoinLf(ls[1..]));
      assert ps[1..] == Pieces(JoinLf(ls[1..]));
      assert DropEmpty(ps) == [ls[0]] + DropEmpty(ps[1..]);
    }
  }

  /** A text without a line feed is one piece: the last line needs no break after it. */
  lemma PiecesNoBreak(l: string)
    requires NoNewline(l)
    ensures Pieces(l) == [l]
  {
    forall t | 0 <= t < |l|
      ensures BreakLen(l, t) == 0
    {
      if l[t] == '\r' && t + 1 < |l| { assert l[t + 1] != '\n'; }
    }
    assert NextBreak(l, 0) == None;
  }

  /** Dropping empty pieces keeps the order of the rest, list by list. */
  lemma {:induction false} DropEmptyAppend(a: seq<string>, b: seq<string>)
    ensures DropEmpty(a + b) == DropEmpty(a) + DropEmpty(b)
  {
    if |a| > 0 {
      assert (a + b)[0] == a[0];
      assert (a + b)[1..] == a[1..] + b;
      DropEmptyAppend(a[1..], b);
    } else {
      assert a + b == b;
    }
  }

  /**
   * The pieces of lines joined by "\n" and followed by a last line without a
   * break: one piece per line, empty lines included, and the last line after them.
   */
  lemma {:induction false} PiecesJoinLf(ls: seq<string>, last: string)
    requires forall k :: 0 <= k < |ls| ==> NoNewline(ls[k]) && !EndsInCr(ls[k])
    requires NoNewline(last)
    ensures Pieces(JoinLf(ls) + last) == ls + [last]
  {
    if |ls| == 0 {
      assert JoinLf(ls) + last == last;
      PiecesNoBreak(last);
    } else {
      PiecesJoinLf(ls[1..], last);
      assert JoinLf(ls) + last == ls[0] + "\n" + (JoinLf(ls[1..]) + last);
      PiecesOfLfLine(ls[0], JoinLf(ls[1..]) + last);
      assert ls + [last] == [ls[0]] + (ls[1..] + [last]);
    }
  }

  /** Splitting any text made of "\n"-separated lines gives its non-empty lines in order. */
  lemma SplitJoinLfGeneral(ls: seq<string>, last: string)
    requires forall k :: 0 <= k < |ls| ==> NoNewline(ls[k]) && !EndsInCr(ls[k])
    requires NoNewline(last)
    ensures SplitLines(JoinLf(ls) + last) == DropEmpty(ls + [last])
  {
    PiecesJoinLf(ls, last);
  }

  /** The same for lines joined by "\r\n"; a line may end in "\r" here. */
  lemma {:induction false} PiecesJoinCrlf(ls: seq<string>, last: string)
    requires forall k :: 0 <= k < |ls| ==> NoNewline(ls[k])
    requires NoNewline(last)
    ensures Pieces(JoinCrlf(ls) + last) == ls + [last]
  {
    if |ls| == 0 {
      assert JoinCrlf(ls) + last == last;
      PiecesNoBreak(last);
    } else {
      PiecesJoinCrlf(ls[1..], last);
      assert JoinCrlf(ls) + last == ls[0] + "\r\n" + (JoinCrlf(ls[1..]) + last);
      PiecesOfLine(ls[0], JoinCrlf(ls[1..]) + last);
      assert ls + [last] == [ls[0]] + (ls[1..] + [last]);
    }
  }

  lemma SplitJoinCrlfGeneral(ls: seq<string>, last: string)
    requires forall k :: 0 <= k < |ls| ==> NoNewline(ls[k])
    requires NoNewline(last)
    ensures SplitLines(JoinCrlf(ls) + last) == DropEmpty(ls + [last])
  {
    PiecesJoinCrlf(ls, last);
  }

  /** The commonest input: a last line without a break after it. */
  lemma SplitLastLine()
    ensures SplitLines("a\nb") == ["a", "b"]
  {
    assert JoinLf(["a"]) + "b" == "a\nb";
    SplitJoinLfGeneral(["a"], "b");
    assert DropEmpty(["a", "b"]) == ["a"] + DropEmpty(["b"]);
  }

  /** An empty line between two breaks yields no line. */
  lemma SplitEmptyLine()
    ensures SplitLines("a\r\n\r\nb") == ["a", "b"]
  {
    assert JoinCrlf(["a", ""]) + "b" == "a\r\n\r\nb";
    SplitJoinCrlfGeneral(["a", ""], "b");
    assert DropEmpty(["a", "", "b"]) == ["a"] + DropEmpty(["", "b"]);
  }

  /** A line ending in "\r" does not survive the "\n" round trip. */
  lemma CrLineLost()
    ensures SplitLines(JoinLf(["a\r"])) == ["a"]
  {
    var s := "a\r\n";
    assert JoinLf(["a\r"]) == s;
    assert BreakLen(s, 0) == 0 && BreakLen(s, 1) == 2;
    assert NextBreak(s, 0) == Some(1);
    assert s[..1] == "a" && s[3..] == "";
    assert NextBreak("", 0) == None;
    assert Pieces(s) == ["a"] + [""];
    assert DropEmpty(["a"] + [""]) == ["a"] + DropEmpty([""]);
  }

  /** All the strings of `ls`, one after another. */
  function Concat(ls: seq<string>): string {
    if |ls| == 0 then "" else ls[0] + Concat(ls[1..])
  }

  /** The input with every "\r\n" and every lone "\n" deleted, scanning left to right. */
  function StripBreaks(s: string): string
    decreases |s|
  {
    if |s| == 0 then ""
    else if BreakLen(s, 0) > 0 then StripBreaks(s[BreakLen(s, 0)..])
    else [s[0]] + StripBreaks(s[1..])
  }

  lemma StripBreaksExamples()
    ensures StripBreaks("a\r\nb") == "ab"
    ensures StripBreaks("a\nb") == "ab"
    ensures StripBreaks("a\rb") == "a\rb"
  {
    assert "a\r\nb"[1..] == "\r\nb" && "\r\nb"[2..] == "b" && "b"[1..] == "";
    assert "a\nb"[1..] == "\nb" && "\nb"[1..] == "b";
    assert "a\rb"[1..] == "\rb" && "\rb"[1..] == "b";
  }

  /** Dropping empty pieces does not change what they spell together. */
  lemma {:induction false} ConcatDropEmpty(ps: seq<string>)
    ensures Concat(DropEmpty(ps)) == Concat(ps)
  {
    if |ps| > 0 {
      ConcatDropEmpty(ps[1..]);
      if ps[0] != [] {
        var qs := [ps[0]] + DropEmpty(ps[1..]);
        assert DropEmpty(ps) == qs;
        assert qs[1..] == DropEmpty(ps[1..]);
        assert Concat(qs) == ps[0] + Concat(qs[1..]);
      }
    }
  }

  /** Before the first break, `StripBreaks` copies characters as they are. */
  lemma {:induction false} StripUpTo(s: string, j: nat)
    requires j <= |s|
    requires forall t :: 0 <= t < j ==> BreakLen(s, t) == 0
    ensures StripBreaks(s) == s[..j] + StripBreaks(s[j..])
    decreases j
  {
    if j > 0 {
      var s1 := s[1..];
      forall t | 0 <= t < j - 1 ensures BreakLen(s1, t) == 0 {
        assert BreakLen(s, t + 1) == 0;
      }
      StripUpTo(s1, j - 1);
      assert s1[j - 1..] == s[j..];
      assert s[..j] == [s[0]] + s1[..j - 1];
    }
  }

  /** The pieces between the breaks, written one after another, are the input without its breaks. */
  lemma {:induction false} ConcatPieces(s: string)
    ensures Concat(Pieces(s)) == StripBreaks(s)
    decreases |s|
  {
    match NextBreak(s, 0)
    case None =>
      StripUpTo(s, |s|);
      assert s[..|s|] == s && s[|s|..] == "";
      assert Concat([s]) == s + Concat([]);
    case Some(j) =>
      var b := BreakLen(s, j);
      var rest := s[j + b..];
      ConcatPieces(rest);
      StripUpTo(s, j);
      var tail := s[j..];
      assert BreakLen(tail, 0) == b;
      assert tail[b..] == rest;
      var ps := [s[..j]] + Pieces(rest);
      assert ps[1..] == Pieces(rest);
  }

  /** Together the lines hold every character of the input except the line breaks. */
  lemma ConcatSplitLines(s: string)
    ensures Concat(SplitLines(s)) == StripBreaks(s)
  {
    ConcatDropEmpty(Pieces(s));
    ConcatPieces(s);
  }
}

=== FILE: links.dfy ===
/**
 * `OpxMarkUp::replaceLinks`: every `[caption](target)` (pattern
 * `\[(.*)]\((.*)\)` with the ungreedy flag) becomes an `<a>` tag. The caption
 * ends at the first "](" and the target at the next ")"; neither crosses a
 * line feed.
 */
module Links {
  import opened Options
  import opened Text
  import opened Scanning
  import ClassAttr

  datatype Link = Link(caption: string, target: string)

  /** What a match covers in the subject. */
  function LinkSource(l: Link): string {
    "[" + l.caption + "](" + l.target + ")"
  }

  /** Where a match's "](" and closing ")" stand in the subject. */
  datatype Span = Span(bridge: nat, close: nat)

  /** "](" starts at `k` in `t`. */
  predicate Bridge(t: string, k: int) {
    0 <= k && k + 1 < |t| && t[k] == ']' && t[k + 1] == '('
  }

  /** `t` starts with a link whose caption ends at the "](" at `k` and whose target ends at the ")" at `m`. */
  predicate IsLinkMatch(t: string, k: int, m: int) {
    && |t| > 0 && t[0] == '['
    && 1 <= k && Bridge(t, k) && SameLine(t, 1, k)
    && k + 2 <= m < |t| && t[m] == ')' && SameLine(t, k + 2, m)
  }

  /** The first "](" at or after `from` with no line feed before it. */
  function BridgeFrom(t: string, from: nat): (r: Option<nat>)
    requires from <= |t|
    ensures r.Some? ==> from <= r.value && Bridge(t, r.value) && SameLine(t, from, r.value)
    ensures r.Some? ==> forall u :: from <= u < r.value ==> !Bridge(t, u)
    ensures r.None? ==> forall k :: from <= k && Bridge(t, k) ==> !SameLine(t, from, k)
    decreases |t| - from
  {
    if from == |t| || t[from] == '\n' then None
    else if Bridge(t, from) then Some(from)
    else BridgeFrom(t, from + 1)
  }

  /**
   * The match at the start of `t`, as the ungreedy pattern finds it: of all
   * ways the pattern matches there, the one with the shortest caption and,
   * for that caption, the shortest target. None when it matches in no way.
   * If the first "](" has no ")" after it on its line, no later "](" on that
   * line has one either, so backtracking into a longer caption never helps.
   */
  function LinkAt(t: string): (r: Option<Span>)
    ensures r.Some? ==> IsLinkMatch(t, r.value.bridge, r.value.close)
    ensures r.Some? ==> forall k, m :: IsLinkMatch(t, k, m) ==> r.value.bridge < k || (r.value.bridge == k && r.value.close <= m)
    ensures r.Some? ==> forall u :: 1 <= u < r.value.bridge ==> !Bridge(t, u)
    ensures r.Some? ==> forall u :: r.value.bridge + 2 <= u < r.value.close ==> t[u] != ')'
    ensures r.None? ==> forall k, m :: !IsLinkMatch(t, k, m)
  {
    if |t| == 0 || t[0] != '[' then None
    else
      match BridgeFrom(t, 1)
      case None => None
      case Some(k) =>
        match ScanTo(t, k + 2, ')')
        case Some(m) => Some(Span(k, m))
        case None =>
          assert forall k', m' :: !IsLinkMatch(t, k', m') by {
            forall k', m' | IsLinkMatch(t, k', m') ensures false {
              LaterBridge(t, k, k', m');
            }
          }
          None
  }

  /** A match with a later bridge would give the first bridge a target too. */
  lemma LaterBridge(t: string, k: nat, k': int, m': int)
    requires IsLinkMatch(t, k', m')
    requires 1 <= k && Bridge(t, k) && SameLine(t, 1, k) && forall u :: 1 <= u < k ==> !Bridge(t, u)
    ensures k <= k' && SameLine(t, k + 2, m')
  {
    forall u | k + 2 <= u < m' && 0 <= u < |t| ensures t[u] != '\n' {
      if u < k' {
      } else if u == k' || u == k' + 1 {
      }
    }
  }

  /** A caption or target as captured: on one line, the target without ")" and the caption without "](". */
  ghost predicate IsCapture(l: Link) {
    && SameLine(l.caption, 0, |l.caption|)
    && SameLine(l.target, 0, |l.target|)
    && (forall u :: 0 <= u < |l.target| ==> l.target[u] != ')')
    && (forall j :: !OccursAt(l.caption, "](", j))
  }

  lemma MatchCaptures(t: string, k: nat, m: nat)
    requires IsLinkMatch(t, k, m)
    requires forall u :: 1 <= u < k ==> !Bridge(t, u)
    requires forall u :: k + 2 <= u < m ==> t[u] != ')'
    ensures IsCapture(Link(t[1..k], t[k + 2..m]))
    ensures t == LinkSource(Link(t[1..k], t[k + 2..m])) + t[m + 1..]
  {
    var c := t[1..k];
    forall u | 0 <= u < |c| ensures c[u] != '\n' { assert c[u] == t[1 + u]; }
    forall j ensures !OccursAt(c, "](", j) {
      if 0 <= j && j + 2 <= |c| {
        assert c[j] == t[1 + j] && c[j + 1] == t[2 + j];
        assert !Bridge(t, 1 + j);
        assert c[j..j + 2][0] == c[j] && c[j..j + 2][1] == c[j + 1];
      }
    }
    var g := t[k + 2..m];
    forall u | 0 <= u < |g| ensures g[u] != '\n' && g[u] != ')' { assert g[u] == t[k + 2 + u]; }
    assert t == [t[0]] + c + t[k..k + 2] + g + [t[m]] + t[m + 1..];
  }

  /**
   * The matches of the link pattern in `t`, tried at every position from the
   * left. The pieces cover `t` exactly, every match has the captures the lazy
   * pattern takes, and a text without "[" has no match.
   */
  function Scan(t: string): (ps: seq<Piece<Link>>)
    ensures Flatten(ps, LinkSource) == t
    ensures forall i :: 0 <= i < |ps| && ps[i].Match? ==> IsCapture(ps[i].m)
    ensures '[' !in t ==> NoMatch(ps)
    decreases |t|
  {
    if |t| == 0 then []
    else
      match LinkAt(t)
      case Some(Span(k, m)) =>
        var l := Link(t[1..k], t[k + 2..m]);
        MatchCaptures(t, k, m);
        var rest := Scan(t[m + 1..]);
        var ps := [Match(l)] + rest;
        assert ps[1..] == rest;
        ps
      case None =>
        var rest := Scan(t[1..]);
        var ps := [Plain(t[0])] + rest;
        assert ps[1..] == rest;
        assert t == [t[0]] + t[1..];
        assert '[' !in t ==> '[' !in t[1..];
        ps
  }

  /** Where a piece says the pattern matches: nowhere for a plain character, the "](" and ")" positions for a match. */
  function Extent(p: Piece<Link>): Option<Span> {
    match p
    case Plain(_) => None
    case Match(l) => Some(Span(1 + |l.caption|, 3 + |l.caption| + |l.target|))
  }

  lemma MatchExtent(t: string, k: nat, m: nat)
    requires LinkAt(t) == Some(Span(k, m))
    ensures 1 <= k <= m < |t|
    ensures LinkAt(t) == Extent(Match(Link(t[1..k], t[k + 2..m])))
  {
    assert IsLinkMatch(t, k, m);
    var c, g := t[1..k], t[k + 2..m];
    assert |c| == k - 1 && |g| == m - k - 2;
    assert Extent(Match(Link(c, g))) == Some(Span(1 + |c|, 3 + |c| + |g|));
  }

  lemma StepTried(t: string, x: Piece<Link>, rest: seq<Piece<Link>>)
    requires Scan(t) == [x] + rest && LinkAt(t) == Extent(x)
    requires TriedEverywhere(rest, LinkSource, LinkAt, Extent)
    ensures TriedEverywhere(Scan(t), LinkSource, LinkAt, Extent)
  {
    assert Flatten([x] + rest, LinkSource) == t;
    TriedCons(x, rest, LinkSource, LinkAt, Extent);
  }

  lemma {:induction false} ScanTried(t: string)
    ensures TriedEverywhere(Scan(t), LinkSource, LinkAt, Extent)
    decreases |t|
  {
    if |t| > 0 {
      match LinkAt(t)
      case Some(Span(k, m)) =>
        var x := Match(Link(t[1..k], t[k + 2..m]));
        var rest := Scan(t[m + 1..]);
        assert Scan(t) == [x] + rest;
        MatchExtent(t, k, m);
        ScanTried(t[m + 1..]);
        StepTried(t, x, rest);
      case None =>
        var x := Plain(t[0]);
        assert Scan(t) == [x] + Scan(t[1..]);
        ScanTried(t[1..]);
        StepTried(t, x, Scan(t[1..]));
    }
  }

  /**
   * The scan tries the pattern at every position, leftmost first: from each
   * piece onwards the pattern's match is what the piece says, none where a
   * plain character stands and exactly that caption and target where a match
   * stands.
   */
  lemma ScanLeftmost(t: string)
    ensures forall i :: 0 <= i < |Scan(t)| ==> LinkAt(Flatten(Scan(t)[i..], LinkSource)) == Extent(Scan(t)[i])
  {
    ScanTried(t);
  }

  /**
   * The href: a target naming a route (it contains "::") is resolved by the
   * route helper when one exists; any other target is used verbatim.
   */
  function Href(target: string, route: Option<string -> string>): (h: string)
    ensures !Contains(target, "::") ==> h == target
    ensures route.None? ==> h == target
    ensures Contains(target, "::") && route.Some? ==> h == route.value(target)
  {
    if IndexOf(target, "::").Some? then
      match route
      case None => target
      case Some(resolve) => resolve(target)
    else target
  }

  /** The `<a>` tag for one match, with the class `<base><divider>link` when a base is given. */
  function Tag(l: Link, base: Option<string>, route: Option<string -> string>): (r: string)
    ensures !Contains(l.target, "::")
            ==> r == "<a" + ClassAttr.Attr(base, "link") + " href=\"" + l.target + "\">" + l.caption + "</a>"
    ensures route.None? ==> r == "<a" + ClassAttr.Attr(base, "link") + " href=\"" + l.target + "\">" + l.caption + "</a>"
  {
    "<a" + ClassAttr.Attr(base, "link") + " href=\"" + Href(l.target, route) + "\">" + l.caption + "</a>"
  }

  function Callback(base: Option<string>, route: Option<string -> string>): Link -> string {
    l => Tag(l, base, route)
  }

  /** The text with every link pseudo-tag replaced; text without "[" passes through unchanged. */
  function Replace(text: string, base: Option<string>, route: Option<string -> string>): (r: string)
    ensures '[' !in text ==> r == text
  {
    var r := Flatten(Scan(text), Callback(base, route));
    assert '[' !in text ==> r == text by {
      if '[' !in text { FlattenNoMatch(Scan(text), Callback(base, route), LinkSource); }
    }
    r
  }

  /** The pattern matches a link's own source exactly, with the link's own captures. */
  lemma SingleMatch(l: Link)
    requires IsCapture(l)
    ensures LinkAt(LinkSource(l)) == Some(Span(1 + |l.caption|, 3 + |l.caption| + |l.target|))
  {
    var t := LinkSource(l);
    var k := 1 + |l.caption|;
    var m := k + 2 + |l.target|;
    assert t[k..k + 2] == "](";
    assert Bridge(t, k);
    forall u | 1 <= u < k ensures t[u] != '\n' && !Bridge(t, u) {
      assert t[u] == l.caption[u - 1];
      if u + 1 < k {
        assert t[u..u + 2] == l.caption[u - 1..u + 1];
        assert !OccursAt(l.caption, "](", u - 1);
      }
    }
    forall u | k + 2 <= u < m ensures t[u] != '\n' && t[u] != ')' {
      assert t[u] == l.target[u - k - 2];
    }
    assert BridgeFrom(t, 1) == Some(k);
    assert t[m] == ')';
    assert ScanTo(t, k + 2, ')') == Some(m);
  }

  /** A text that is exactly one link pseudo-tag becomes exactly its `<a>` tag. */
  lemma ReplaceSingle(l: Link, base: Option<string>, route: Option<string -> string>)
    requires IsCapture(l)
    ensures Replace(LinkSource(l), base, route) == Tag(l, base, route)
  {
    var t := LinkSource(l);
    var k := 1 + |l.caption|;
    var m := k + 2 + |l.target|;
    SingleMatch(l);
    assert t[1..k] == l.caption && t[k + 2..m] == l.target;
    assert t[m + 1..] == [];
    assert Scan([]) == [];
    assert Scan(t) == [Match(l)];
    var ps := [Match(l)];
    assert ps[1..] == [];
    assert Flatten(ps, Callback(base, route)) == Tag(l, base, route) + Flatten([], Callback(base, route));
  }

  /** With no route helper, a route-like target is used verbatim: "[Home](home::index)" links to "home::index". */
  lemma RouteFallback()
    ensures Tag(Link("Home", "home::index"), None, None)
         == "<a" + " href=\"" + "home::index" + "\">" + "Home" + "</a>"
  {
  }
}

=== FILE: markup.dfy ===
/**
 * `OpxMarkUp::parse`: split the content into lines, run the block-state
 * machine over them, render the blocks as HTML, then rewrite images and
 * links in the assembled text.
 */
module MarkUp {
  import opened Options
  import opened Text
  import opened Blocks
  import Lines
  import TableRow
  import Images
  import Links
  import ClassAttr

  /** The digits that spell the level in `<hn>`: a single digit for the levels 1 to 6 that occur. */
  function Decimal(n: nat): (d: string)
    ensures |d| > 0
  {
    if n < 10 then ["0123456789"[n]] else Decimal(n / 10) + ["0123456789"[n % 10]]
  }

  /**
   * The HTML for one block; class attributes come from the base class name.
   * Every block but raw text opens with a tag, and every block but a rule and
   * raw text ends its HTML with "\r\n".
   */
  function Render(b: Block, base: Option<string>): (r: string)
    ensures !b.Raw? ==> |r| > 0 && r[0] == '<'
    ensures !b.Rule? && !b.Raw? ==> |r| >= 2 && r[|r| - 2..] == "\r\n"
  {
    match b
    case ListOpen => "<ul" + ClassAttr.Attr(base, "list") + ">" + "\r\n"
    case ListClose => "</ul>\r\n"
    case TableOpen =>
      "<div" + ClassAttr.Attr(base, "table-container") + ">" + "\r\n"
      + "<table" + ClassAttr.Attr(base, "table") + ">" + "\r\n"
    case TableClose => "</table>\r\n" + "</div>\r\n"
    case Heading(n, t) => "<h" + Decimal(n) + ClassAttr.Attr(base, "title") + ">" + t + "</h" + Decimal(n) + ">\r\n"
    case Item(t) => "<li" + ClassAttr.Attr(base, "list-item") + ">" + t + "</li>\r\n"
    case Row(line) =>
      "<tr" + ClassAttr.Attr(base, "table-row") + ">" + "\r\n"
      + TableRow.Rewrite(line, base) + "</tr>" + "\r\n"
    case Rule => "<hr>"
    case Raw(t) => t
    case Paragraph(t) => "<p" + ClassAttr.Attr(base, "paragraph") + ">" + t + "</p>\r\n"
  }

  /** A line opening with `n` hashes and a space becomes `<hn …>text</hn>`, the text after the prefix. */
  lemma HeadingHtml(line: string, n: nat, base: Option<string>)
    requires 1 <= n <= 6 && HashPrefix(line, n)
    ensures Render(Classify(line), base)
         == "<h" + ["0123456789"[n]] + ClassAttr.Attr(base, "title") + ">" + line[n + 1..] + "</h" + ["0123456789"[n]] + ">\r\n"
  {
    ClassifyHeading(line, n);
  }

  /** An item line renders as `<li…>` around the text after "* ". */
  lemma ItemHtml(line: string, base: Option<string>)
    requires "* " <= line
    ensures Render(Classify(line), base) == "<li" + ClassAttr.Attr(base, "list-item") + ">" + line[2..] + "</li>\r\n"
  {
    ClassifyItem(line);
  }

  /** A row line renders as `<tr…>` around the whole line with its cells rewritten. */
  lemma RowHtml(line: string, base: Option<string>)
    requires "|" <= line
    ensures Render(Classify(line), base)
            == "<tr" + ClassAttr.Attr(base, "table-row") + ">" + "\r\n" + TableRow.Rewrite(line, base) + "</tr>" + "\r\n"
  {
    ClassifyRow(line);
  }

  /** A rule is a bare `<hr>`: no class attribute and no line break. */
  lemma RuleHtml(line: string, base: Option<string>)
    requires "---" <= line
    ensures Render(Classify(line), base) == "<hr>"
  {
    ClassifyFallbacks(line);
  }

  /** A raw line is written as it stands, without its leading "/". */
  lemma RawHtml(line: string, base: Option<string>)
    requires "/" <= line
    ensures Render(Classify(line), base) == line[1..]
  {
    ClassifyFallbacks(line);
  }

  /** An escaped line is a paragraph of the rest, trimmed again. */
  lemma EscapedHtml(line: string, base: Option<string>)
    requires "\\" <= line
    ensures Render(Classify(line), base) == "<p" + ClassAttr.Attr(base, "paragraph") + ">" + Trim(line[1..]) + "</p>\r\n"
  {
    ClassifyFallbacks(line);
  }

  /** A line no earlier branch takes is a paragraph of the line as it stands. */
  lemma ParagraphHtml(line: string, base: Option<string>)
    requires forall n :: 1 <= n <= 6 ==> !HashPrefix(line, n)
    requires !("* " <= line) && !("|" <= line) && !("---" <= line) && !("/" <= line) && !("\\" <= line)
    ensures Render(Classify(line), base) == "<p" + ClassAttr.Attr(base, "paragraph") + ">" + line + "</p>\r\n"
  {
    ClassifyFallbacks(line);
  }

  /** A piece of blanks only renders as an empty paragraph. */
  lemma BlankLineHtml(piece: string, base: Option<string>)
    requires AllBlank(piece)
    ensures Render(Classify(Trim(piece)), base) == "<p" + ClassAttr.Attr(base, "paragraph") + "></p>\r\n"
  {
    BlankLineIsEmptyParagraph(piece);
    var b := Classify(Trim(piece));
    assert b == Paragraph("");
    assert Render(b, base) == "<p" + ClassAttr.Attr(base, "paragraph") + ">" + "" + "</p>\r\n";
  }

  function RenderAll(bs: seq<Block>, base: Option<string>): string {
    if |bs| == 0 then "" else Render(bs[0], base) + RenderAll(bs[1..], base)
  }

  lemma {:induction false} RenderAllAppend(a: seq<Block>, b: seq<Block>, base: Option<string>)
    ensures RenderAll(a + b, base) == RenderAll(a, base) + RenderAll(b, base)
  {
    if |a| == 0 {
      assert a + b == b;
    } else {
      assert (a + b)[1..] == a[1..] + b;
      RenderAllAppend(a[1..], b, base);
    }
  }

  /** PHP `!$content` for a string or null: null, "" and "0" are falsy. */
  predicate Falsy(content: Option<string>) {
    content.None? || IsEmpty(content.value)
  }

  /**
   * The whole transform of a non-falsy content: blocks, then images, then
   * links. When the rendered blocks hold no "[", neither inline pass changes
   * anything.
   */
  function Convert(text: string, base: Option<string>, route: Option<string -> string>): (r: string)
    ensures '[' !in RenderAll(Blocks.Events(Lines.SplitLines(text)), base)
            ==> r == RenderAll(Blocks.Events(Lines.SplitLines(text)), base)
  {
    var html := RenderAll(Blocks.Events(Lines.SplitLines(text)), base);
    Links.Replace(Images.Replace(html, base), base, route)
  }

  /**
   * `parse($content, $class)`: null exactly for falsy content (so also for
   * "0"), otherwise the converted text. `route` stands for the framework's
   * `route()` helper, None when it does not exist.
   */
  function Parse(content: Option<string>, base: Option<string>, route: Option<string -> string>): (r: Option<string>)
    ensures r.None? <==> content.None? || content.value == "" || content.value == "0"
    ensures r.Some? ==> r.value == Convert(content.value, base, route)
  {
    if Falsy(content) then None else Some(Convert(content.value, base, route))
  }

  lemma RenderOne(b: Block, base: Option<string>)
    ensures RenderAll([b], base) == Render(b, base)
  {
    assert [b][1..] == [];
  }

  /** The closings' HTML, as the loop appends it. */
  lemma ClosingsHtml(st: State, line: string, base: Option<string>)
    ensures RenderAll(Closings(st, line), base)
         == (if st.listOpen && !("* " <= line) then "</ul>\r\n" else "")
          + (if st.tableOpen && !("|" <= line) then "</table>\r\n" + "</div>\r\n" else "")
  {
    var l := if st.listOpen && !("* " <= line) then [ListClose] else [];
    var t := if st.tableOpen && !("|" <= line) then [TableClose] else [];
    RenderAllAppend(l, t, base);
    RenderOne(ListClose, base);
    RenderOne(TableClose, base);
  }

  /** The openings' HTML, as the loop appends it. */
  lemma OpeningsHtml(st: State, line: string, base: Option<string>)
    ensures RenderAll(Openings(st, line), base)
         == (if Classify(line).Item? && !st.listOpen then Render(ListOpen, base)
             else if Classify(line).Row? && !st.tableOpen then Render(TableOpen, base)
             else "")
  {
    RenderOne(ListOpen, base);
    RenderOne(TableOpen, base);
  }

  /** The HTML of one iteration is its closings, openings and the line's block, in that order. */
  lemma EmitHtml(st: State, line: string, base: Option<string>)
    ensures RenderAll(st.out + Emit(st, line), base)
         == RenderAll(st.out, base) + ((RenderAll(Closings(st, line), base)
          + RenderAll(Openings(st, line), base)) + Render(Classify(line), base))
  {
    var c, p, b := Closings(st, line), Openings(st, line), Classify(line);
    RenderAllAppend(c, p, base);
    RenderAllAppend(c + p, [b], base);
    RenderOne(b, base);
    RenderAllAppend(st.out, Emit(st, line), base);
  }

  /** The last line's step, as the loop takes it. */
  lemma RunStep(pieces: seq<string>, i: nat)
    requires i < |pieces|
    ensures Run(pieces[..i + 1]) == Step(Run(pieces[..i]), pieces[i])
  {
    assert pieces[..i + 1][..i] == pieces[..i];
  }

  /** The end-of-input closings' HTML, as `parse` appends it. */
  lemma FinalHtml(st: State, base: Option<string>)
    ensures RenderAll(Final(st), base)
         == (if st.listOpen then "</ul>\r\n" else "")
          + (if st.tableOpen then "</table>\r\n" + "</div>\r\n" else "")
  {
    var l := if st.listOpen then [ListClose] else [];
    var t := if st.tableOpen then [TableClose] else [];
    assert Final(st) == l + t;
    RenderAllAppend(l, t, base);
    RenderOne(ListClose, base);
    RenderOne(TableClose, base);
  }

  /**
   * The loop of `parse` as written: the two flags and the output string,
   * closings before the line's own markup, then the end-of-input closings.
   */
  method RenderLines(pieces: seq<string>, base: Option<string>) returns (html: string)
    ensures html == RenderAll(Blocks.Events(pieces), base)
  {
    html := "";
    var ulOpened := false;
    var tableOpened := false;
    var i := 0;
    ghost var st := Start;
    assert pieces[..0] == [];
    while i < |pieces|
      invariant 0 <= i <= |pieces|
      invariant st == Run(pieces[..i])
      invariant ulOpened == st.listOpen && tableOpened == st.tableOpen
      invariant html == RenderAll(st.out, base)
    {
      var line := Trim(pieces[i]);
      var closings, openings;
      closings, ulOpened, tableOpened := CloseTags(ulOpened, tableOpened, line, base, st);
      openings, ulOpened, tableOpened := OpenTag(ulOpened, tableOpened, line, base, st);
      html := html + ((closings + openings) + Render(Classify(line), base));
      EmitHtml(st, line, base);
      RunStep(pieces, i);
      st := Step(st, pieces[i]);
      i := i + 1;
    }
    assert pieces[..i] == pieces;
    var tail := EndTags(ulOpened, tableOpened, base, st);
    html := html + tail;
    RenderAllAppend(st.out, Final(st), base);
  }

  /** After the last line: close the open list, then the open table. */
  method EndTags(ulOpened: bool, tableOpened: bool, base: Option<string>, ghost st: State) returns (tail: string)
    requires st.listOpen == ulOpened && st.tableOpen == tableOpened
    ensures tail == RenderAll(Final(st), base)
  {
    FinalHtml(st, base);
    tail := "";
    if ulOpened {
      tail := "</ul>\r\n";
    }
    if tableOpened {
      tail := tail + "</table>\r\n" + "</div>\r\n";
    }
  }

  /** Before a line: close the open list unless it is an item, then the open table unless it is a row. */
  method CloseTags(ulOpened: bool, tableOpened: bool, line: string, base: Option<string>, ghost st: State)
    returns (closings: string, ul: bool, table: bool)
    requires st.listOpen == ulOpened && st.tableOpen == tableOpened
    ensures closings == RenderAll(Closings(st, line), base)
    ensures ul == (ulOpened && "* " <= line) && table == (tableOpened && "|" <= line)
  {
    ClosingsHtml(st, line, base);
    var closeList := ulOpened && !("* " <= line);
    var closeTable := tableOpened && !("|" <= line);
    var listPart := if closeList then "</ul>\r\n" else "";
    var tablePart := if closeTable then "</table>\r\n" + "</div>\r\n" else "";
    closings := listPart + tablePart;
    ul := ulOpened && !closeList;
    table := tableOpened && !closeTable;
  }

  /** An item opens a list and a row a table, unless one is already open. */
  method OpenTag(ulOpened: bool, tableOpened: bool, line: string, base: Option<string>, ghost st: State)
    returns (openings: string, ul: bool, table: bool)
    requires ulOpened == (st.listOpen && "* " <= line) && tableOpened == (st.tableOpen && "|" <= line)
    ensures openings == RenderAll(Openings(st, line), base)
    ensures ul == ((st.listOpen && "* " <= line) || Classify(line).Item?)
    ensures table == ((st.tableOpen && "|" <= line) || Classify(line).Row?)
  {
    OpeningsHtml(st, line, base);
    ClassifyItem(line);
    ClassifyRow(line);
    ul, table := ulOpened, tableOpened;
    var b := Classify(line);
    openings := "";
    if b.Item? && !ul {
      openings := Render(ListOpen, base);
      ul := true;
    } else if b.Row? && !table {
      openings := Render(TableOpen, base);
      table := true;
    }
  }

  /** `parse`: null for falsy content, otherwise the rendered lines with images and links rewritten. */
  method ParseText(content: Option<string>, base: Option<string>, route: Option<string -> string>)
    returns (r: Option<string>)
    ensures r == Parse(content, base, route)
  {
    if content.None? || IsEmpty(content.value) {
      return None;
    }
    var html := RenderLines(Lines.SplitLines(content.value), base);
    html := Images.Replace(html, base);
    html := Links.Replace(html, base, route);
    r := Some(html);
  }

  /** Content with only line breaks is not falsy: it gives an empty string, not null. */
  lemma OnlyBreaksGiveEmptyString(base: Option<string>, route: Option<string -> string>)
    ensures Parse(Some("\n"), base, route) == Some("")
  {
    assert Lines.NextBreak("\n", 0) == Some(0);
    assert "\n"[1..] == [];
    assert Lines.NextBreak([], 0) == None;
    assert Lines.Pieces("\n") == [[]] + [[]];
    assert Lines.SplitLines("\n") == [];
    assert Blocks.Events([]) == [];
  }
}

=== FILE: options.dfy ===
/** PHP's nullable values: a missing array element, a null class name, an absent route helper. */
module Options {

  datatype Option<+T> = None | Some(value: T) {

    /** The value, or `default` when there is none (PHP's `??`). */
    function GetOr(default: T): T {
      match this
      case Some(v) => v
      case None => default
    }
  }
}

=== FILE: scanning.dfy ===
/**
 * What `preg_replace_callback` sees of a subject string: a left-to-right run of
 * characters outside any match and of matches, each match holding its captures.
 */
module Scanning {
  import opened Options

  datatype Piece<+T> = Plain(c: char) | Match(m: T)

  /** Concatenate `ps`, writing a plain piece as its character and a match through `f`. */
  function Flatten<T>(ps: seq<Piece<T>>, f: T -> string): string {
    if |ps| == 0 then ""
    else
      (match ps[0]
       case Plain(c) => [c]
       case Match(m) => f(m)) + Flatten(ps[1..], f)
  }

  predicate NoMatch<T>(ps: seq<Piece<T>>) {
    forall k :: 0 <= k < |ps| ==> ps[k].Plain?
  }

  /** Without any match, how matches are written does not matter. */
  lemma {:induction false} FlattenNoMatch<T>(ps: seq<Piece<T>>, f: T -> string, g: T -> string)
    requires NoMatch(ps)
    ensures Flatten(ps, f) == Flatten(ps, g)
  {
    if |ps| > 0 {
      FlattenNoMatch(ps[1..], f, g);
    }
  }

  /**
   * The pattern was tried at every piece: `at` applied to the text from each
   * piece onwards gives what that piece says (no match for a plain character,
   * the match's extent for a match).
   */
  ghost predicate TriedEverywhere<T, R>(ps: seq<Piece<T>>, src: T -> string, at: string -> R, extent: Piece<T> -> R) {
    forall i :: 0 <= i < |ps| ==> at(Flatten(ps[i..], src)) == extent(ps[i])
  }

  lemma TriedCons<T, R>(x: Piece<T>, rest: seq<Piece<T>>, src: T -> string, at: string -> R, extent: Piece<T> -> R)
    requires at(Flatten([x] + rest, src)) == extent(x)
    requires TriedEverywhere(rest, src, at, extent)
    ensures TriedEverywhere([x] + rest, src, at, extent)
  {
    var ps := [x] + rest;
    assert ps[0..] == ps;
    forall i | 1 <= i < |ps| ensures at(Flatten(ps[i..], src)) == extent(ps[i]) {
      assert ps[i..] == rest[i - 1..];
    }
  }

  /** No line feed in `s[a..b]`: PCRE's `.` matches anything else. */
  predicate SameLine(s: string, a: int, b: int) {
    forall t :: a <= t < b && 0 <= t < |s| ==> s[t] != '\n'
  }

  /**
   * A lazy `.*?` followed by the character `c`, from `from`: the first `c` at or
   * after `from` with no line feed before it; None when a line feed or the end
   * comes first.
   */
  function ScanTo(s: string, from: nat, c: char): (r: Option<nat>)
    requires from <= |s| && c != '\n'
    ensures r.Some? ==> from <= r.value < |s| && s[r.value] == c && SameLine(s, from, r.value)
    ensures r.Some? ==> forall t :: from <= t < r.value ==> s[t] != c
    ensures r.None? ==> forall j :: from <= j < |s| && s[j] == c ==> !SameLine(s, from, j)
    decreases |s| - from
  {
    if from == |s| || s[from] == '\n' then None
    else if s[from] == c then Some(from)
    else ScanTo(s, from + 1, c)
  }
}

=== FILE: table_row.dfy ===
/**
 * The cell rewrite of a table row: `preg_replace_callback('/\|([^|.]+)/', ...)`.
 * Each leftmost, longest run of "|" followed by characters other than "|" and
 * "." becomes a `<td>` holding the trimmed run; everything else is copied.
 */
module TableRow {
  import opened Options
  import opened Text
  import opened Scanning
  import ClassAttr

  /** `[^|.]`: the characters a cell capture is made of. */
  predicate IsCellChar(c: char) {
    c != '|' && c != '.'
  }

  predicate IsCapture(s: string) {
    |s| > 0 && forall i :: 0 <= i < |s| ==> IsCellChar(s[i])
  }

  /** The subject text a match covers: the bar, then the capture. */
  function CellSource(capture: string): string {
    "|" + capture
  }

  /** The first character a piece covers. */
  function Head(p: Piece<string>): char {
    match p
    case Plain(c) => c
    case Match(_) => '|'
  }

  /** After this piece, a longer match or a new match would have started here. */
  predicate Opens(p: Piece<string>) {
    p.Match? || p == Plain('|')
  }

  /** End of the longest run of cell characters starting at `i` (greedy `+`). */
  function RunEnd(s: string, i: nat): (n: nat)
    requires i <= |s|
    ensures i <= n <= |s|
    ensures forall j :: i <= j < n ==> IsCellChar(s[j])
    ensures n == |s| || !IsCellChar(s[n])
    decreases |s| - i
  {
    if i < |s| && IsCellChar(s[i]) then RunEnd(s, i + 1) else i
  }

  /**
   * The matches of `\|([^|.]+)` in `s`, left to right. The pieces cover `s`
   * exactly, every capture is a non-empty run of cell characters, and every
   * match is maximal: after a capture, or after a bar copied as it stands,
   * comes a character that is not a cell character.
   */
  function Scan(s: string): (ps: seq<Piece<string>>)
    ensures Flatten(ps, CellSource) == s
    ensures |s| > 0 ==> |ps| > 0 && Head(ps[0]) == s[0]
    ensures forall k :: 0 <= k < |ps| && ps[k].Match? ==> IsCapture(ps[k].m)
    ensures forall k :: 0 <= k < |ps| - 1 && Opens(ps[k]) ==> !IsCellChar(Head(ps[k + 1]))
    decreases |s|
  {
    if |s| == 0 then []
    else if s[0] == '|' && |s| > 1 && IsCellChar(s[1]) then
      var n := RunEnd(s, 1);
      var rest := Scan(s[n..]);
      assert IsCapture(s[1..n]) by {
        forall i | 0 <= i < n - 1 ensures IsCellChar(s[1..n][i]) { assert s[1..n][i] == s[i + 1]; }
      }
      MatchStep(s, n, rest);
      [Match(s[1..n])] + rest
    else
      var rest := Scan(s[1..]);
      PlainStep(s, rest);
      [Plain(s[0])] + rest
  }

  /** A maximal run taken at the start, in front of a good scan of the rest, is a good scan. */
  lemma MatchStep(s: string, n: nat, rest: seq<Piece<string>>)
    requires 1 < n <= |s| && s[0] == '|' && IsCapture(s[1..n])
    requires n == |s| || !IsCellChar(s[n])
    requires Flatten(rest, CellSource) == s[n..] && WellScanned(rest)
    requires n < |s| ==> |rest| > 0 && Head(rest[0]) == s[n]
    ensures var ps := [Match(s[1..n])] + rest;
      Flatten(ps, CellSource) == s && Head(ps[0]) == s[0] && WellScanned(ps)
  {
    MatchCovers(s, n, rest);
    MatchWell(s[1..n], rest);
  }

  lemma MatchCovers(s: string, n: nat, rest: seq<Piece<string>>)
    requires 1 < n <= |s| && s[0] == '|' && Flatten(rest, CellSource) == s[n..]
    ensures Flatten([Match(s[1..n])] + rest, CellSource) == s
  {
    var ps := [Match(s[1..n])] + rest;
    assert ps[1..] == rest;
    assert s == s[..1] + s[1..n] + s[n..];
  }

  lemma MatchWell(cap: string, rest: seq<Piece<string>>)
    requires IsCapture(cap) && WellScanned(rest)
    requires |rest| > 0 ==> !IsCellChar(Head(rest[0]))
    ensures WellScanned([Match(cap)] + rest)
  {
    var ps := [Match(cap)] + rest;
    forall k | 0 <= k < |ps| && ps[k].Match? ensures IsCapture(ps[k].m) {
      if k > 0 { assert ps[k] == rest[k - 1]; }
    }
    forall k | 0 <= k < |ps| - 1 && Opens(ps[k]) ensures !IsCellChar(Head(ps[k + 1])) {
      assert ps[k + 1] == rest[k];
      if k > 0 { assert ps[k] == rest[k - 1]; }
    }
  }

  /** A character copied at the start, in front of a good scan of the rest, is a good scan. */
  lemma PlainStep(s: string, rest: seq<Piece<string>>)
    requires |s| > 0 && !(s[0] == '|' && |s| > 1 && IsCellChar(s[1]))
    requires Flatten(rest, CellSource) == s[1..] && WellScanned(rest)
    requires |s| > 1 ==> |rest| > 0 && Head(rest[0]) == s[1]
    ensures var ps := [Plain(s[0])] + rest;
      Flatten(ps, CellSource) == s && Head(ps[0]) == s[0] && WellScanned(ps)
  {
    var ps := [Plain(s[0])] + rest;
    assert ps[1..] == rest;
    assert s == [s[0]] + s[1..];
    forall k | 0 <= k < |ps| && ps[k].Match? ensures IsCapture(ps[k].m) {
      assert ps[k] == rest[k - 1];
    }
    forall k | 0 <= k < |ps| - 1 && Opens(ps[k]) ensures !IsCellChar(Head(ps[k + 1])) {
      assert ps[k + 1] == rest[k];
      if k > 0 { assert ps[k] == rest[k - 1]; }
    }
  }

  /** The properties `Scan` promises of its pieces, other than covering the subject. */
  predicate WellScanned(ps: seq<Piece<string>>) {
    && (forall k :: 0 <= k < |ps| && ps[k].Match? ==> IsCapture(ps[k].m))
    && (forall k :: 0 <= k < |ps| - 1 && Opens(ps[k]) ==> !IsCellChar(Head(ps[k + 1])))
  }

  lemma WellScannedTail(ps: seq<Piece<string>>)
    requires |ps| > 0 && WellScanned(ps)
    ensures WellScanned(ps[1..])
  {
    var tail := ps[1..];
    forall k | 0 <= k < |tail| && tail[k].Match? ensures IsCapture(tail[k].m) {
      assert tail[k] == ps[k + 1];
    }
    forall k | 0 <= k < |tail| - 1 && Opens(tail[k]) ensures !IsCellChar(Head(tail[k + 1])) {
      assert tail[k] == ps[k + 1] && tail[k + 1] == ps[k + 2];
    }
  }

  lemma FlattenHead(ps: seq<Piece<string>>)
    requires |ps| > 0
    ensures |Flatten(ps, CellSource)| > 0 && Flatten(ps, CellSource)[0] == Head(ps[0])
  {
  }

  /** The next character after a leading piece is not a cell character. */
  lemma NextNotCell(ps: seq<Piece<string>>)
    requires |ps| > 0 && WellScanned(ps) && Opens(ps[0])
    ensures var t := Flatten(ps[1..], CellSource); |t| > 0 ==> !IsCellChar(t[0])
  {
    if |ps| > 1 {
      FlattenHead(ps[1..]);
      assert ps[1..][0] == ps[1];
    }
  }

  /** A leading match of `ps` is the run `Scan` takes at the start of the subject. */
  lemma LeadingMatch(s: string, cap: string, t: string)
    requires s == "|" + cap + t && IsCapture(cap)
    requires |t| > 0 ==> !IsCellChar(t[0])
    ensures |s| > 1 && IsCellChar(s[1])
    ensures RunEnd(s, 1) == 1 + |cap| && s[1..1 + |cap|] == cap && s[1 + |cap|..] == t
  {
    assert s[1] == cap[0];
    var n := RunEnd(s, 1);
    var e := 1 + |cap|;
    assert s[1..e] == cap;
    assert s[e..] == t;
  }

  /**
   * The scan is the only division of `s` with the properties `Scan` promises:
   * so those properties are a complete description of the regular expression's
   * leftmost, greedy matching.
   */
  lemma {:induction false} ScanUnique(s: string, ps: seq<Piece<string>>)
    requires Flatten(ps, CellSource) == s
    requires WellScanned(ps)
    ensures ps == Scan(s)
    decreases |ps|
  {
    if |ps| == 0 {
      assert s == [];
    } else {
      var tail := ps[1..];
      var t := Flatten(tail, CellSource);
      WellScannedTail(ps);
      ScanUnique(t, tail);
      match ps[0]
      case Plain(c) =>
        assert s == [c] + t;
        if c == '|' && |s| > 1 {
          NextNotCell(ps);
        }
        assert s[1..] == t;
      case Match(cap) =>
        assert s == "|" + cap + t;
        if |t| > 0 {
          NextNotCell(ps);
        }
        LeadingMatch(s, cap, t);
    }
  }

  /** The `<td>` for one capture; a capture PHP's `empty()` accepts ("0") yields nothing. */
  function CellTag(capture: string, base: Option<string>): (r: string)
    ensures IsEmpty(capture) <==> r == ""
    ensures !IsEmpty(capture) ==> r == "<td" + ClassAttr.Attr(base, "table-cell") + ">" + Trim(capture) + "</td>\r\n"
  {
    if IsEmpty(capture) then ""
    else "<td" + ClassAttr.Attr(base, "table-cell") + ">" + Trim(capture) + "</td>\r\n"
  }

  /** The replacement callback, closed over the base class name. */
  function Callback(base: Option<string>): string -> string {
    cap => CellTag(cap, base)
  }

  /** The rewritten row text: matches become cells, all other characters are copied, so a row with no cell run in it is copied unchanged. */
  function Rewrite(line: string, base: Option<string>): (r: string)
    ensures NoMatch(Scan(line)) ==> r == line
  {
    var r := Flatten(Scan(line), Callback(base));
    assert NoMatch(Scan(line)) ==> r == line by {
      if NoMatch(Scan(line)) { FlattenNoMatch(Scan(line), Callback(base), CellSource); }
    }
    r
  }

  lemma ScanTwoCells()
    ensures Scan("|A|B") == [Match("A")] + [Match("B")]
  {
    var s := "|A|B";
    assert RunEnd(s, 1) == 2;
    assert s[2..] == "|B";
    assert s[1..2] == "A";
    assert RunEnd("|B", 1) == 2;
    assert "|B"[2..] == [] && "|B"[1..2] == "B";
    assert Scan([]) == [];
    assert Scan("|B") == [Match("B")] + Scan([]);
  }

  lemma FlattenTwoCells(base: Option<string>)
    ensures Flatten([Match("A")] + [Match("B")], Callback(base)) == CellTag("A", base) + CellTag("B", base)
  {
    var ps := [Match("A")] + [Match("B")];
    var f := Callback(base);
    assert ps[1..] == [Match("B")] && ps[1..][1..] == [];
    assert Flatten([Match("B")], f) == CellTag("B", base) + Flatten([], f);
  }

  /** Two plain cells: "|A|B" becomes the cell for "A", then the cell for "B", and nothing else. */
  lemma RewriteTwoCells(base: Option<string>)
    ensures Rewrite("|A|B", base) == CellTag("A", base) + CellTag("B", base)
  {
    ScanTwoCells();
    FlattenTwoCells(base);
  }

  lemma ScanDot()
    ensures Scan("|a.b") == [Match("a")] + ([Plain('.')] + ([Plain('b')] + []))
  {
    var s := "|a.b";
    assert RunEnd(s, 1) == 2;
    assert s[2..] == ".b";
    assert s[1..2] == "a" && ".b"[1..] == "b" && "b"[1..] == [];
    assert Scan([]) == [];
    assert Scan("b") == [Plain('b')] + Scan([]);
    assert Scan(".b") == [Plain('.')] + Scan("b");
  }

  /** A dot ends a cell and is copied through: "|a.b" gives the cell for "a", then ".b". */
  lemma RewriteDotEndsCell(base: Option<string>)
    ensures Rewrite("|a.b", base) == CellTag("a", base) + ".b"
  {
    ScanDot();
    var ps := [Match("a")] + ([Plain('.')] + ([Plain('b')] + []));
    var f := Callback(base);
    assert Flatten([Plain('b')], f) == "b";
    assert Flatten([Plain('.')] + [Plain('b')], f) == ".b";
    assert Flatten(ps, f) == CellTag("a", base) + Flatten([Plain('.')] + [Plain('b')], f);
  }

  lemma ScanSpacedCells()
    ensures Scan("| A |B") == [Match(" A ")] + [Match("B")]
  {
    var s := "| A |B";
    assert RunEnd(s, 4) == 4;
    assert RunEnd(s, 1) == 4;
    assert s[4..] == "|B" && s[1..4] == " A ";
    assert RunEnd("|B", 1) == 2;
    assert "|B"[2..] == [] && "|B"[1..2] == "B";
    assert Scan([]) == [];
    assert Scan("|B") == [Match("B")] + Scan([]);
  }

  lemma SpacedCellTag()
    ensures CellTag(" A ", None) == "<td>A</td>\r\n"
  {
    assert SkipBlanks(" A ", 0) == 1;
    assert DropBlanks(" A ", 3) == 2;
    assert " A "[1..2] == "A";
  }

  lemma PlainCellTag()
    ensures CellTag("B", None) == "<td>B</td>\r\n"
  {
    assert SkipBlanks("B", 0) == 0;
    assert DropBlanks("B", 1) == 1;
    assert "B"[0..1] == "B";
  }

  /** A cell's text is trimmed and, without a base class, the cell has no attribute. */
  lemma RewriteSpacedCells()
    ensures Rewrite("| A |B", None) == "<td>A</td>\r\n<td>B</td>\r\n"
  {
    ScanSpacedCells();
    FlattenTwoCells(None);
    SpacedCellTag();
    PlainCellTag();
  }
}

=== FILE: text.dfy ===
/**
 * The PHP string primitives the markup parser relies on, over `string` (a `seq<char>`):
 * `trim`, `strpos`, `explode`, `strtolower` and `empty`.
 */
module Text {
  import opened Options

  /** The characters PHP's `trim()` strips by default: " \t\n\r\0\x0B". */
  predicate IsBlank(c: char) {
    c == ' ' || c == '\t' || c == '\n' || c == '\r' || c == '\0' || c == '\U{000B}'
  }

  predicate AllBlank(s: string) {
    forall i :: 0 <= i < |s| ==> IsBlank(s[i])
  }

  /** PHP `empty()` on a string: true for "" and for "0". */
  predicate IsEmpty(s: string) {
    s == "" || s == "0"
  }

  /** The first position at or after `i` that holds no blank, or `|s|`. */
  function SkipBlanks(s: string, i: nat): (r: nat)
    requires i <= |s|
    ensures i <= r <= |s| && (r < |s| ==> !IsBlank(s[r]))
    decreases |s| - i
  {
    if i < |s| && IsBlank(s[i]) then SkipBlanks(s, i + 1) else i
  }

  /** The end of `s[..j]` once its trailing blanks are dropped. */
  function DropBlanks(s: string, j: nat): (r: nat)
    requires j <= |s|
    ensures r <= j && (r > 0 ==> !IsBlank(s[r - 1]))
  {
    if j > 0 && IsBlank(s[j - 1]) then DropBlanks(s, j - 1) else j
  }

  lemma {:induction false} SkipBlanksSkipsBlanks(s: string, i: nat)
    requires i <= |s|
    ensures forall k :: i <= k < SkipBlanks(s, i) ==> IsBlank(s[k])
    decreases |s| - i
  {
    if i < |s| && IsBlank(s[i]) {
      SkipBlanksSkipsBlanks(s, i + 1);
    }
  }

  lemma {:induction false} DropBlanksDropsBlanks(s: string, j: nat)
    requires j <= |s|
    ensures forall k :: DropBlanks(s, j) <= k < j ==> IsBlank(s[k])
  {
    if j > 0 && IsBlank(s[j - 1]) {
      DropBlanksDropsBlanks(s, j - 1);
    }
  }

  /** `r` is what is left of `s` after dropping `a` blanks in front and only blanks behind. */
  predicate Framed(s: string, r: string, a: int) {
    0 <= a <= |s| - |r| && r == s[a..a + |r|] && AllBlank(s[..a]) && AllBlank(s[a + |r|..])
  }

  /** PHP `trim()`: neither end of the result is blank. */
  function Trim(s: string): (r: string)
    ensures |r| <= |s|
    ensures r == [] || (!IsBlank(r[0]) && !IsBlank(r[|r| - 1]))
  {
    var a := SkipBlanks(s, 0);
    var e := DropBlanks(s, |s|);
    if a < e then s[a..e] else []
  }

  /**
   * What `trim()` keeps is the part of `s` between a leading and a trailing
   * run of blanks.
   */
  lemma TrimFramed(s: string)
    ensures exists a :: Framed(s, Trim(s), a)
  {
    var a := SkipBlanks(s, 0);
    var e := DropBlanks(s, |s|);
    SkipBlanksSkipsBlanks(s, 0);
    DropBlanksDropsBlanks(s, |s|);
    if a < e {
      assert Trim(s) == s[a..e];
      assert Framed(s, s[a..e], a);
    } else {
      assert a == |s|;
      assert Trim(s) == [];
      assert Framed(s, [], |s|);
    }
  }

  /** Trimming twice is trimming once. */
  lemma TrimIdempotent(s: string)
    ensures Trim(Trim(s)) == Trim(s)
  {
    TrimKeeps(Trim(s));
  }

  /** A string whose ends are not blank is left as it is. */
  lemma TrimKeeps(s: string)
    requires s == [] || (!IsBlank(s[0]) && !IsBlank(s[|s| - 1]))
    ensures Trim(s) == s
  {
    if s != [] {
      assert SkipBlanks(s, 0) == 0;
      assert DropBlanks(s, |s|) == |s|;
      assert s[0..|s|] == s;
    }
  }

  /** A string trims to nothing exactly when it is made of blanks only. */
  lemma TrimEmptyIffBlank(s: string)
    ensures Trim(s) == [] <==> AllBlank(s)
  {
    TrimFramed(s);
    var a :| Framed(s, Trim(s), a);
    if Trim(s) == [] {
      assert s == s[..a] + s[a..];
    }
  }

  /** `p` occurs in `s` at position `i`. */
  predicate OccursAt(s: string, p: string, i: int) {
    0 <= i && i + |p| <= |s| && s[i..i + |p|] == p
  }

  /** `p` occurs somewhere in `s` (`strpos($s, $p) !== false`). */
  ghost predicate Contains(s: string, p: string) {
    exists i :: OccursAt(s, p, i)
  }

  function IndexFrom(s: string, p: string, from: nat): (r: Option<nat>)
    requires from <= |s|
    ensures r.Some? ==> from <= r.value && OccursAt(s, p, r.value)
    ensures r.Some? ==> forall j :: from <= j < r.value ==> !OccursAt(s, p, j)
    ensures r.None? ==> forall j :: from <= j ==> !OccursAt(s, p, j)
    decreases |s| - from
  {
    if from + |p| > |s| then None
    else if s[from..from + |p|] == p then Some(from)
    else IndexFrom(s, p, from + 1)
  }

  /** PHP `strpos`: the leftmost position of `p` in `s`, or None. */
  function IndexOf(s: string, p: string): (r: Option<nat>)
    ensures r.Some? ==> OccursAt(s, p, r.value) && forall j :: 0 <= j < r.value ==> !OccursAt(s, p, j)
    ensures r.None? <==> !Contains(s, p)
  {
    IndexFrom(s, p, 0)
  }

  /** Glue `parts` back together with `sep` between neighbours (PHP `implode`). */
  function Join(parts: seq<string>, sep: string): string
    requires |parts| >= 1
  {
    if |parts| == 1 then parts[0] else parts[0] + sep + Join(parts[1..], sep)
  }

  /** No occurrence of `sep` starts inside `p` and runs into a `sep` written after it. */
  predicate SplitsLeftmost(p: string, sep: string) {
    forall j :: 0 <= j < |p| ==> !OccursAt(p + sep, sep, j)
  }

  /**
   * PHP `explode($sep, $s)` (PHP refuses an empty separator): the pieces of `s`
   * between the leftmost non-overlapping occurrences of `sep`. Gluing them back
   * gives `s`, no piece contains `sep`, and each cut is at the leftmost
   * occurrence: none starts earlier inside the piece before it.
   */
  function Explode(s: string, sep: string): (parts: seq<string>)
    requires |sep| > 0
    ensures |parts| >= 1
    ensures Join(parts, sep) == s
    ensures forall k, j :: 0 <= k < |parts| ==> !OccursAt(parts[k], sep, j)
    ensures forall k :: 0 <= k < |parts| - 1 ==> SplitsLeftmost(parts[k], sep)
    decreases |s|
  {
    match IndexOf(s, sep)
    case None => [s]
    case Some(i) =>
      var rest := Explode(s[i + |sep|..], sep);
      ExplodeStep(s, sep, i, rest);
      [s[..i]] + rest
  }

  /** Putting the text before the leftmost separator in front of the pieces of the rest keeps every promise of `Explode`. */
  lemma ExplodeStep(s: string, sep: string, i: nat, rest: seq<string>)
    requires |sep| > 0 && IndexOf(s, sep) == Some(i)
    requires |rest| >= 1 && Join(rest, sep) == s[i + |sep|..]
    requires forall k, j :: 0 <= k < |rest| ==> !OccursAt(rest[k], sep, j)
    requires forall k :: 0 <= k < |rest| - 1 ==> SplitsLeftmost(rest[k], sep)
    ensures Join([s[..i]] + rest, sep) == s
    ensures forall k, j :: 0 <= k < |[s[..i]] + rest| ==> !OccursAt(([s[..i]] + rest)[k], sep, j)
    ensures forall k :: 0 <= k < |[s[..i]] + rest| - 1 ==> SplitsLeftmost(([s[..i]] + rest)[k], sep)
  {
    var head := s[..i];
    var parts := [head] + rest;
    assert parts[1..] == rest;
    SplitAround(s, sep, i);
    HeadFree(s, sep, i);
    HeadSplitsLeftmost(s, sep, i);
    forall k, j | 0 <= k < |parts| ensures !OccursAt(parts[k], sep, j) {
      if k > 0 { assert parts[k] == rest[k - 1]; }
    }
    forall k | 0 <= k < |parts| - 1 ensures SplitsLeftmost(parts[k], sep) {
      if k > 0 { assert parts[k] == rest[k - 1]; }
    }
  }

  /** A string is its text before an occurrence, the occurrence and its text after. */
  lemma SplitAround(s: string, sep: string, i: nat)
    requires OccursAt(s, sep, i)
    ensures s == s[..i] + sep + s[i + |sep|..]
  {
    assert s == s[..i] + s[i..i + |sep|] + s[i + |sep|..];
  }

  /** The text before the leftmost separator holds no separator. */
  lemma HeadFree(s: string, sep: string, i: nat)
    requires |sep| > 0 && IndexOf(s, sep) == Some(i)
    ensures forall j :: !OccursAt(s[..i], sep, j)
  {
    var head := s[..i];
    forall j | 0 <= j < |head| ensures !OccursAt(head, sep, j) {
      assert !OccursAt(s, sep, j);
      if j + |sep| <= |head| {
        assert head[j..j + |sep|] == s[j..j + |sep|];
      }
    }
  }

  /** The text before the leftmost separator has no separator running into the one that follows it. */
  lemma HeadSplitsLeftmost(s: string, sep: string, i: nat)
    requires IndexOf(s, sep) == Some(i)
    ensures SplitsLeftmost(s[..i], sep)
  {
    var head := s[..i];
    var hs := head + sep;
    assert hs == s[..i + |sep|];
    forall j | 0 <= j < |head| ensures !OccursAt(hs, sep, j) {
      assert !OccursAt(s, sep, j);
      assert hs[j..j + |sep|] == s[j..j + |sep|];
    }
  }

  function LowerChar(c: char): (d: char)
    ensures 'A' <= c <= 'Z' ==> 'a' <= d <= 'z' && d as int - c as int == 32
    ensures !('A' <= c <= 'Z') ==> d == c
  {
    if 'A' <= c <= 'Z' then (c as int + 32) as char else c
  }

  /** `strtolower` as in PHP 8.2 or later, or under the C locale: ASCII letters only, every other character unchanged. */
  function Lower(s: string): (r: string)
    ensures |r| == |s|
    ensures forall i :: 0 <= i < |s| ==> r[i] == LowerChar(s[i])
    ensures forall i :: 0 <= i < |r| ==> !('A' <= r[i] <= 'Z')
  {
    seq(|s|, i requires 0 <= i < |s| => LowerChar(s[i]))
  }

  /** A string without upper-case ASCII letters is its own lower case. */
  lemma LowerKeeps(s: string)
    requires forall i :: 0 <= i < |s| ==> !('A' <= s[i] <= 'Z')
    ensures Lower(s) == s
  {
  }
}
